=== FILE: README.md ===
# Portfolio content backend — a Dafny model

This project models the content backend of a personal portfolio site built on
Next.js, plus the few pieces of pure state logic inside its admin and page
components. The parts it covers are:

- **The projects route** (`src/app/api/admin/projects/route.ts`). The projects
  file is a sequence of `Project` records. GET, POST and PUT are functions from
  (file, submitted form, clock value, environment outcomes) to (file, response).
  The model also covers how the form text is decoded into a record.
- **The projects admin screen** (`src/components/admin/ProjectsManager.tsx`).
  It keeps a local copy of the records, updated by filter, map or append. Its
  edit form encodes a record back into text fields, which the projects route
  decodes again.
- **The browser between the two** (`FormTransport`, `FormFields`). A text input
  drops line breaks from its value. A url input also trims ASCII white space.
  The multipart encoding sends every line break of a textarea as CR LF. The
  edit round trip is stated over these values as the route receives them, not
  as they were typed.
- **Uploads and the media listing** (`upload/route.ts`, `media/route.ts`). Upload
  validates the request, sanitises the file name, and builds the stored name
  and url. The listing cuts the id and name back out of that stored name.
- **Authentication**: the path/cookie middleware, the login route's decision
  chain, and the `$`-escaping done by the password script.
- **Small component state**:
  - the CV uploader's validation and state;
  - the media library's selection, search filter and size ordering;
  - the testimonial carousel index;
  - the hero section's age calculation;
  - the loading screen's progress counter.

Everything is immutable datatypes and pure functions. Effects the code cannot
decide for itself are parameters, and the contracts quantify over all of them.
These are:

- the clock value (`Date.now()`);
- the fresh UUID;
- whether a read or write succeeded;
- `bcryptjs.compare`;
- `JSON.parse` / `JSON.stringify` of the image list;
- the outcome of each `fetch`;
- the user's answer to `confirm()`.

JavaScript library semantics the code relies on are written out in `Text` and
`JsNumber`:

- `split` with a one-character separator;
- `join`;
- `trim`, using the ECMAScript white-space set;
- `parseInt` with no radix;
- `String(n)` for integers;
- the truncating `%` operator.

The modules follow the source files. In each row below, "the file" means the
projects file unless the module says otherwise.

| module | models |
|---|---|
| `Common` | `Option`, the order-keeping filter `Keep`, `startsWith`, `includes` |
| `Text` | `split`, `join`, `trim` |
| `JsNumber` | `parseInt`, `String(n)`, `%` |
| `Http` | a response: a body, or a status and message |
| `ProjectStore` | `src/app/api/admin/projects/route.ts` |
| `ProjectsManager` | `src/components/admin/ProjectsManager.tsx` |
| `FormTransport` | what the browser does to text-input, url-input and textarea values on submit (HTML standard) |
| `FormFields` | how the features and technologies lists travel through the edit form and back |
| `Upload` | `src/app/api/admin/upload/route.ts` |
| `Media` | `src/app/api/admin/media/route.ts` |
| `AdminGate` | `src/middleware.ts` |
| `HashEscape` | `scripts/generate-password.js` (and the unescape in the login route) |
| `Login` | `src/app/api/admin/login/route.ts` |
| `CvUploader` | `src/components/admin/CVUploader.tsx` |
| `MediaLibrary` | `src/components/admin/MediaLibrary.tsx` |
| `Carousel` | `src/components/Testimonials.tsx` |
| `Age` | `calculateAge` in `src/components/Hero3D.tsx` |
| `LoadingScreen` | `src/components/LoadingScreen.tsx` |

## Model

| member | source | states |
|---|---|---|
| Common.Keep | src/components/admin/ProjectsManager.tsx:43 | `filter` keeps exactly the elements satisfying the test. Every kept element comes from the input, and every input element that passes is kept. |
| Common.KeepAppend | src/components/admin/ProjectsManager.tsx:43 | Filtering works piece by piece, so kept elements stay in their original order. |
| Common.KeepAll | src/app/api/admin/projects/route.ts:54 | When every element passes, the filter returns its input unchanged. |
| Common.KeepIdempotent | src/app/api/admin/projects/route.ts:54 | Filtering twice is the same as filtering once. |
| Text.CountAbsent | src/app/api/admin/projects/route.ts:56 | A character is absent exactly when it occurs zero times. |
| Text.Split | src/app/api/admin/projects/route.ts:54 | `split` on one character gives one more piece than there are separators, and no piece contains the separator. |
| Text.SplitNoSeparator | src/app/api/admin/projects/route.ts:56 | A string without the separator splits into itself alone. |
| Text.SplitFirst | src/app/api/admin/media/route.ts:27 | Splitting cuts at the first separator: the prefix before it is the first piece. |
| Text.SplitJoin | src/components/admin/ProjectsManager.tsx:222 | Joining separator-free pieces and splitting again returns the pieces. |
| Text.Join | src/components/admin/ProjectsManager.tsx:222 | `join` of no parts is empty, and the result starts with the first part. |
| Text.SplitPieceChars | src/app/api/admin/projects/route.ts:56 | Every character of a piece of `split` is a character of the split string. |
| Text.JoinAvoids | src/components/admin/ProjectsManager.tsx:234 | A character in neither the parts nor the separator is not in the joined string. |
| Text.JoinSplit | src/app/api/admin/media/route.ts:29 | Splitting and re-joining with the same separator returns the original string, for every string. |
| Text.TrimStart | src/app/api/admin/projects/route.ts:56 | The result is a suffix of the input that does not start with white space, and everything cut off in front of it is white space. |
| Text.TrimStartKeeps | src/app/api/admin/projects/route.ts:76 | A string not starting with white space is left as it is. |
| Text.TrimEnd | src/app/api/admin/projects/route.ts:56 | The result is a prefix of the input that does not end with white space, and everything cut off behind it is white space. |
| Text.TrimBy | src/app/api/admin/projects/route.ts:56 | The result is a slice of the input with no white space at either end, and everything cut away on both sides is white space. An already-trimmed string is unchanged. |
| Text.TrimByUnique | src/app/api/admin/projects/route.ts:56 | That slice is the only one: any slice with no white space at its ends and only white space around it is the trimmed result. |
| Text.TrimByKeepsChars | src/app/api/admin/projects/route.ts:56 | Trimming never lengthens and only keeps characters of the input. |
| Text.Trim | src/app/api/admin/projects/route.ts:56 | `trim()` is the slice of the input left once ECMAScript white space is cut from both ends. It has no white space at either end, only white space was cut away, an already-trimmed string is unchanged, and every character comes from the input. |
| Text.TrimKeeps | src/app/api/admin/projects/route.ts:56 | Trimming an already-trimmed string changes nothing. |
| Text.TrimLeadingSpace | src/app/api/admin/projects/route.ts:56 | A leading space makes no difference after trimming. |
| Text.TrimAll | src/app/api/admin/projects/route.ts:56 | `map(t => t.trim())` keeps the length and trims each piece in place. |
| Text.TrimAllTrimmedCons | src/app/api/admin/projects/route.ts:56 | An already-trimmed first piece stays unchanged in front of the other trimmed pieces. |
| Text.TrimAllSplitLeadingSpace | src/app/api/admin/projects/route.ts:56 | With a non-space separator, a leading space does not change the trimmed pieces. |
| JsNumber.ParseMagnitude | src/app/api/admin/projects/route.ts:76 | The unsigned part of `parseInt` is never negative, and text not starting with a digit is NaN. |
| JsNumber.ParseInt | src/app/api/admin/projects/route.ts:76 | After leading white space, text starting with neither a sign nor a digit is NaN, and only a leading `-` gives a negative number. |
| JsNumber.IntToString | src/app/api/admin/projects/route.ts:76 | `String(n)` is non-empty, starts with `-` exactly for negative `n`, and is digits after that. |
| JsNumber.ParseMagnitudeDecimal | src/app/api/admin/projects/route.ts:76 | The decimal text of a natural number reads back as that number; it never looks like a `0x` prefix. |
| JsNumber.LeadingDigits | src/app/api/admin/projects/route.ts:76 | `parseInt` reads the longest prefix of digits, and the next character is not a digit. |
| JsNumber.Decimal | src/app/api/admin/projects/route.ts:76 | The decimal text of a natural number is non-empty and all digits. |
| JsNumber.DecimalValue | src/app/api/admin/projects/route.ts:76 | Reading the decimal text of `m` back gives `m`. |
| JsNumber.LeadingDigitsAll | src/app/api/admin/projects/route.ts:76 | On an all-digit string the digit prefix is the whole string. |
| JsNumber.ParseIntToString | src/app/api/admin/projects/route.ts:76 | `parseInt(String(n))` is `n` for every integer. |
| JsNumber.Rem | src/components/Testimonials.tsx:34 | The truncating remainder lies in `[0, n)` for a non-negative dividend, and in `(-n, 0]` otherwise. The dividend is the quotient truncated toward zero, times `|n|`, plus the remainder, which with the range fixes its value on every input. |
| ProjectStore.ReadProjects | src/app/api/admin/projects/route.ts:21-28 | An unreadable or unparsable file yields no records. |
| ProjectStore.DecodeFeatures | src/app/api/admin/projects/route.ts:54 | Features are exactly the non-empty newline-separated pieces. None is empty or holds a newline, and there are at most as many as newlines plus one. |
| ProjectStore.DecodeTechnologies | src/app/api/admin/projects/route.ts:56 | There is exactly one entry per comma plus one, empty entries included. Entry `i` is the `i`-th comma-separated piece, trimmed, so each entry is trimmed and comma-free. |
| ProjectStore.DecodeImages | src/app/api/admin/projects/route.ts:55 | An absent or empty field decodes to `[]`. Otherwise the result is `JSON.parse`'s, including its failure. |
| ProjectStore.DecodeLiveDemo | src/app/api/admin/projects/route.ts:58 | The link is absent exactly when the field is missing or empty. Otherwise it is the field. |
| ProjectStore.Decode | src/app/api/admin/projects/route.ts:49-60 | Decoding fails exactly when `features` or `technologies` is missing or the images do not parse. Otherwise each field is decoded as above, and `inProgress` holds exactly when the field is `"true"`. |
| ProjectStore.RequestId | src/app/api/admin/projects/route.ts:76 | A form without `id` gives NaN: `null` is read as the text "null". |
| ProjectStore.MissingIdIsNaN | src/app/api/admin/projects/route.ts:76 | A form without `id` parses to NaN. |
| ProjectStore.FindIndex | src/app/api/admin/projects/route.ts:91 | `findIndex` returns the first position holding the id. It finds nothing exactly when no record holds it, and NaN matches nothing. |
| ProjectStore.List | src/app/api/admin/projects/route.ts:35-42 | GET always succeeds: the stored records, or none when the file is unreadable. |
| ProjectStore.Create | src/app/api/admin/projects/route.ts:44-70 | POST succeeds exactly when the form decodes and the write succeeds. On success the new record has the clock value as id and is appended after the unchanged old records, and it is returned. Any failure is 500 and leaves the file untouched. |
| ProjectStore.Update | src/app/api/admin/projects/route.ts:72-104 | An undecodable form gets 500 before any lookup. An id that matches no record gets 404 with no write. Otherwise PUT writes the decoded record, keeping the id, at the first position holding that id. |
| ProjectStore.UpdateFrame | src/app/api/admin/projects/route.ts:91-97 | A successful PUT changes exactly one position, the first holding the id. The length and every other record are unchanged. |
| ProjectStore.CreateOverUnreadable | src/app/api/admin/projects/route.ts:21-63 | POST over an unreadable file leaves a file holding only the new record. |
| ProjectsManager.StartAdd | src/components/admin/ProjectsManager.tsx:27-30 | Adding opens the modal with no record under edit and keeps the list. |
| ProjectsManager.StartEdit | src/components/admin/ProjectsManager.tsx:32-35 | Editing opens the modal on the given record and keeps the list. |
| ProjectsManager.ChooseImages | src/components/admin/ProjectsManager.tsx:50-54 | Choosing files replaces the pending files. No file list changes nothing. |
| ProjectsManager.WithoutId | src/components/admin/ProjectsManager.tsx:43 | Every record kept lacks the id and comes from the list, and every record without the id is kept. |
| ProjectsManager.WithoutIdAppend | src/components/admin/ProjectsManager.tsx:43 | Removing by id works piece by piece, so the kept records stay in order. |
| ProjectsManager.DeleteProject | src/components/admin/ProjectsManager.tsx:37-48 | A confirmed delete whose request settled, with any status, drops every record with that id and keeps all others, in order and with their multiplicity: on every split of the list, removal works piece by piece. A cancelled delete or a rejected request changes nothing. |
| ProjectsManager.DeleteAbsentId | src/components/admin/ProjectsManager.tsx:43 | Deleting an id no record holds leaves the list as it was. |
| ProjectsManager.DefaultInputs | src/components/admin/ProjectsManager.tsx:184-259 | Adding shows empty inputs. When editing, the features textarea splits back on line feeds into the record's features when they hold none. |
| ProjectsManager.InputsForm | src/components/admin/ProjectsManager.tsx:58 | `new FormData(form)` holds exactly the seven named inputs with their values, and no `images`, `id` or `inProgress`. |
| ProjectsManager.Sent | src/components/admin/ProjectsManager.tsx:184-259 | As the route receives them, the four text inputs hold no line break, the url input holds none and has no ASCII white space at its ends, and both textareas write every line break as CR LF. |
| ProjectsManager.SubmitRequest | src/components/admin/ProjectsManager.tsx:56-81 | The request is PUT exactly when editing. It carries the seven named inputs as the browser sends them, and never `id` or `inProgress`. It has `images` exactly when new files were chosen, holding the encoded urls. |
| ProjectsManager.UploadAll | src/components/admin/ProjectsManager.tsx:60-73 | One failed upload rejects the batch. Otherwise there is one url per file, in order. |
| ProjectsManager.ReplaceById | src/components/admin/ProjectsManager.tsx:86 | The length is kept. Each record holding the id is replaced by the saved one, and every other record is kept. |
| ProjectsManager.Submit | src/components/admin/ProjectsManager.tsx:56-97 | An upload failure or a reply that is not ok changes nothing. Success appends the saved record when adding, or replaces by the edited id when editing, then closes and resets the modal. |
| ProjectsManager.EditNeverFound | src/components/admin/ProjectsManager.tsx:56-81 | As written, every edit fails with the file unchanged. It gets 404 whenever the form decodes. |
| ProjectsManager.EditWithoutUploadsDropsImages | src/components/admin/ProjectsManager.tsx:61-75 | As written, an edit without new files decodes to no images, whatever images the record had. |
| ProjectsManager.SubmitRequestFixed | src/components/admin/ProjectsManager.tsx:56-81 | Corrected: an edit sends an `id` that parses back to the record's id, and sends the new urls or else the record's own images. Adding is unchanged. |
| ProjectsManager.EditFixedFindsRecord | src/app/api/admin/projects/route.ts:72-99 | With the correction, editing a stored record succeeds, keeps its id and stores the images sent. Those are the record's own images when no files were chosen. |
| ProjectsManager.EditRoundTrip | src/components/admin/ProjectsManager.tsx:184-259 | With the correction, saving an untouched edit form decodes back to the same record exactly when the record survives the edit: its features have the stored shape, its technologies are at least one and each trimmed, comma-free and without line breaks, its single-line fields hold no line break, its long description writes line breaks as CR LF, any link is non-empty and trimmed of ASCII white space, and it is not in progress. |
| ProjectsManager.EditedFieldsRoundTrip | src/components/admin/ProjectsManager.tsx:184-259 | Field by field, the record as the route decodes it from the sent edit form equals the record exactly when it survives the edit. |
| FormTransport.StripNewlines | src/components/admin/ProjectsManager.tsx:187-193 | A text input's value holds no CR or LF, is no longer, and keeps only characters of what was typed. |
| FormTransport.StripNewlinesKeeps | src/components/admin/ProjectsManager.tsx:187-193 | A text input leaves a value unchanged exactly when it holds no line break. |
| FormTransport.UrlValue | src/components/admin/ProjectsManager.tsx:253-258 | A url input's value holds no line break and no ASCII white space at either end, and is no longer than what was typed. |
| FormTransport.UrlValueKeeps | src/components/admin/ProjectsManager.tsx:253-258 | A url input leaves a value unchanged exactly when it holds no line break and no ASCII white space at its ends. |
| FormTransport.Lines | src/components/admin/ProjectsManager.tsx:209-226 | A textarea value has at least one line, and no line holds a line break. |
| FormTransport.Crlf | src/components/admin/ProjectsManager.tsx:209-226 | The sent textarea value writes every line break as CR LF: no lone CR and no lone LF. |
| FormTransport.CrlfKeeps | src/components/admin/ProjectsManager.tsx:209-226 | Sending leaves a textarea value unchanged exactly when its line breaks already are CR LF. |
| FormTransport.JoinCrlfNormal | src/components/admin/ProjectsManager.tsx:209-226 | Lines without breaks joined with CR LF never hold a lone CR or LF. |
| FormTransport.JoinLinesNormal | src/components/admin/ProjectsManager.tsx:209-226 | A value whose breaks are all CR LF is its lines joined with CR LF. |
| FormTransport.LinesJoin | src/components/admin/ProjectsManager.tsx:222 | Lines without breaks, joined with LF or with CR LF, split back into the same lines. |
| FormTransport.LinesFirst | src/components/admin/ProjectsManager.tsx:222 | The first line ends at the first LF or CR LF. |
| FormTransport.LinesTrailingCr | src/components/admin/ProjectsManager.tsx:222 | A final lone CR ends the last line and starts an empty one. |
| FormFields.FeaturesRoundTrip | src/components/admin/ProjectsManager.tsx:222 | Features as typed: joining with LF and decoding gives them back exactly when none is empty or holds an LF. |
| FormFields.TechnologiesSplitJoin | src/components/admin/ProjectsManager.tsx:234 | Joining trimmed, comma-free technologies with `", "`, splitting on commas and trimming gives them back. |
| FormFields.TechnologiesRoundTrip | src/components/admin/ProjectsManager.tsx:234 | Technologies as typed survive exactly when there is at least one and each is trimmed and comma-free. |
| FormFields.TechnologiesThroughForm | src/components/admin/ProjectsManager.tsx:231-237 | Through the text input as sent, technologies survive exactly when there is at least one and each is trimmed, comma-free and without line breaks. |
| FormFields.SplitCrlfJoin | src/app/api/admin/projects/route.ts:54 | Lines sent with CR LF and split on LF keep a CR at the end of every line but the last. |
| FormFields.KeepCarried | src/app/api/admin/projects/route.ts:54 | Filtering those pieces drops only an empty last line. |
| FormFields.DecodedFeatureLines | src/app/api/admin/projects/route.ts:54 | Whatever is typed into the features textarea, the stored list has the stored shape: every feature but the last ends in a CR, and the last is non-empty. |
| FormFields.StoredLines | src/components/admin/ProjectsManager.tsx:222 | The textarea lines of a stored list are the features without their final CR, plus an empty line after a final CR. |
| FormFields.LinesOfStoredFeatures | src/components/admin/ProjectsManager.tsx:222 | Joining a stored list with LF for the textarea gives exactly those lines. |
| FormFields.CarriedBodies | src/app/api/admin/projects/route.ts:54 | Putting the CRs back on those lines gives the stored list again. |
| FormFields.FeatureLinesSurvive | src/app/api/admin/projects/route.ts:54 | A list of the stored shape comes back unchanged from the textarea. |
| FormFields.FeaturesThroughForm | src/app/api/admin/projects/route.ts:54 | Through the textarea as sent, a feature list comes back unchanged exactly when it has the stored shape. |
| FormFields.FeaturesGainCarriageReturn | src/app/api/admin/projects/route.ts:54 | As written, plain features come back with a CR added to every one but the last, so two or more never survive their first save. |
| FormFields.DecodeFeaturesFixed | src/app/api/admin/projects/route.ts:54 | Corrected split: every feature is non-empty and free of line breaks, and every non-empty line of the text is kept. |
| FormFields.FixedFeaturesRoundTrip | src/app/api/admin/projects/route.ts:54 | With the corrected split, features come back through the textarea exactly when none is empty or holds a line break. |
| Upload.Sanitize | src/app/api/admin/upload/route.ts:22 | Only letters, digits, `.` and `-` remain, in order. There is no path separator, and the result is no longer than the input. |
| Upload.SanitizeAppend | src/app/api/admin/upload/route.ts:22 | Sanitising works character by character: an allowed character is kept and any other is dropped. |
| Upload.SanitizeClean | src/app/api/admin/upload/route.ts:22 | A name of allowed characters is unchanged. |
| Upload.SanitizeIdempotent | src/app/api/admin/upload/route.ts:22 | Sanitising twice is the same as sanitising once. |
| Upload.StoredName | src/app/api/admin/upload/route.ts:22 | The stored name is the UUID, a hyphen and the sanitised name, in that order. |
| Upload.PublicUrl | src/app/api/admin/upload/route.ts:30 | The url is `/uploads/` followed by the stored name. |
| Upload.StoredNameStaysInDirectory | src/app/api/admin/upload/route.ts:22-26 | With a well-formed UUID the stored name is a single path component. |
| Upload.Post | src/app/api/admin/upload/route.ts:6-36 | The checks run in the order the route checks them: a missing or empty field is 400, a text field is 500, and a type not starting with `image/` is 400. A file is written exactly when the response is ok, and the url names the file written. |
| Media.ItemId | src/app/api/admin/media/route.ts:27 | The id holds no hyphen. |
| Media.ItemName | src/app/api/admin/media/route.ts:29 | A file name without a hyphen has an empty name. |
| Media.IdAndName | src/app/api/admin/media/route.ts:27-29 | The id, a hyphen and the name rebuild a hyphenated file name. Without a hyphen the id is the whole name and the name is empty. |
| Media.Describe | src/app/api/admin/media/route.ts:26-32 | An item carries the file's url, its size and its modification time. |
| Media.List | src/app/api/admin/media/route.ts:15-41 | An unreadable directory or any failing `stat` gives 500. Otherwise there is one item per entry, in order, with the derived id, name and url, the size and the modification time as `uploadedAt`; each item is the entry's `Describe`. |
| Media.UploadedIdIsFirstGroup | src/app/api/admin/media/route.ts:27-29 | As written, an uploaded file's id is only the first 8 characters of its UUID. The other groups are prefixed to its name. |
| Media.UploadedIdFixed | src/app/api/admin/media/route.ts:27-29 | Corrected: the listing returns the full UUID as id and the sanitised original name. |
| Media.IdAndNameFixed | src/app/api/admin/media/route.ts:27-29 | The corrected id and name still rebuild every hyphenated file name. |
| AdminGate.Middleware | src/middleware.ts:4-26 | Any redirect goes to `/admin/login`, and happens only on an `/admin` path without the cookie. |
| AdminGate.Gate | src/middleware.ts:9-30 | A request is redirected, always to `/admin/login`, exactly when its path is matched by `/admin/:path*`, is neither the login page nor under `/admin/api/`, and it carries no cookie. |
| AdminGate.MatchedIsAdmin | src/middleware.ts:28-30 | Every path the matcher selects starts with `/admin`, so the middleware body decides it. |
| AdminGate.GateRedirects | src/middleware.ts:9-30 | A matched admin page other than the login page and `/admin/api/`, requested without the cookie, is redirected to the login page. |
| AdminGate.OutsideAdminPasses | src/middleware.ts:9-25 | Paths not starting with `/admin` pass. |
| AdminGate.NoRedirectLoop | src/middleware.ts:11-21 | The login page itself always passes, so a redirect cannot loop. |
| AdminGate.AdminApiPasses | src/middleware.ts:11-13 | `/admin/api/` paths pass whatever the cookie. |
| AdminGate.MissingCookieRedirects | src/middleware.ts:16-22 | Every other admin path without the cookie is redirected. |
| AdminGate.CookieValueIgnored | src/middleware.ts:16-25 | Any cookie value, even an empty one, grants passage. |
| AdminGate.WriteRoutesUngated | src/middleware.ts:28-30 | The `/api/admin/` write routes are never gated. |
| HashEscape.Escape | scripts/generate-password.js:10 | The length grows by the number of `$`. The last character is kept, and the result never starts with `$`. |
| HashEscape.Unescape | src/app/api/admin/login/route.ts:24 | Unescaping never lengthens. |
| HashEscape.EscapeAppend | scripts/generate-password.js:10 | Escaping works character by character: `$` becomes `\$` and everything else is kept. |
| HashEscape.EscapeNoDollar | scripts/generate-password.js:10 | A string without `$` is its own escape. |
| HashEscape.UnescapeEscape | scripts/generate-password.js:10-19 | Unescaping undoes escaping, for every string. |
| HashEscape.UnescapeNoBackslash | src/app/api/admin/login/route.ts:24 | A string without a backslash is unchanged by unescaping. |
| Login.CleanHash | src/app/api/admin/login/route.ts:22-24 | Cleaning never lengthens the hash, and a trimmed hash without backslashes is unchanged. |
| Login.IsBcryptFormat | src/app/api/admin/login/route.ts:28 | A hash that passes the format check has 60 characters, no backslash and no white space at its ends. |
| Login.Login | src/app/api/admin/login/route.ts:5-74 | An unreadable body or a missing hash gives 500. A malformed hash gives 500. The reply is 200 with the session cookie exactly when bcrypt matches, and 401 exactly when it does not. |
| Login.RejectedHashSkipsCompare | src/app/api/admin/login/route.ts:13-34 | A missing or malformed hash gives 500 before bcrypt is consulted: the reply does not depend on the comparison. |
| Login.AcceptedHashShape | src/app/api/admin/login/route.ts:28 | An accepted hash has 60 characters, a `$2a$`, `$2b$` or `$2y$` prefix and no backslash, and cleaning it again changes nothing. |
| Login.EscapedHashAccepted | src/app/api/admin/login/route.ts:22-28 | The script's escaped hash cleans back to the hash and passes the format check. |
| CvUploader.Validate | src/components/admin/CVUploader.tsx:17-28 | A file is accepted exactly when its type is PDF, DOC or DOCX and its size is at most 5 MiB. The type error wins over the size error. |
| CvUploader.Sending | src/components/admin/CVUploader.tsx:30-31 | During an upload the error is cleared, `uploading` is set, and the CV is unchanged. |
| CvUploader.FileChange | src/components/admin/CVUploader.tsx:13-54 | A request is sent exactly when the file passes validation. A rejected file only sets the error. Success sets the CV url and clears the error. Failure keeps the CV and sets the error. `uploading` ends false either way. |
| CvUploader.Delete | src/components/admin/CVUploader.tsx:56-73 | With no CV, or with the delete not confirmed, nothing changes. Otherwise success clears the CV and failure sets the error. |
| CvUploader.TypeCheckedFirst | src/components/admin/CVUploader.tsx:18-22 | A disallowed type gets the type error, whatever the size. |
| CvUploader.AcceptedFiles | src/components/admin/CVUploader.tsx:18-28 | Exactly the three document types, up to 5 MiB, are sent. |
| MediaLibrary.ToggleSelection | src/components/admin/MediaLibrary.tsx:101-109 | Toggling flips the id's membership and leaves every other id as it was. |
| MediaLibrary.ToggleTwice | src/components/admin/MediaLibrary.tsx:101-109 | Toggling the same id twice restores the selection. |
| MediaLibrary.AfterDelete | src/components/admin/MediaLibrary.tsx:65-78 | A confirmed delete whose requests all settled empties the selection. Otherwise the selection is kept. |
| MediaLibrary.LowerChar | src/components/admin/MediaLibrary.tsx:87 | An ASCII capital becomes the small letter 32 code points above it, and every other character is kept. |
| MediaLibrary.Lower | src/components/admin/MediaLibrary.tsx:87 | Lowercasing keeps the length and maps each character. |
| MediaLibrary.FilterItems | src/components/admin/MediaLibrary.tsx:87 | The filter keeps exactly the items whose name contains the query, ignoring ASCII case, all taken from the list. |
| MediaLibrary.EmptyQueryKeepsAll | src/components/admin/MediaLibrary.tsx:87 | An empty query keeps every item. |
| MediaLibrary.Insert | src/components/admin/MediaLibrary.tsx:94-95 | The insertion step keeps sizes non-increasing and adds exactly one element. |
| MediaLibrary.SortBySize | src/components/admin/MediaLibrary.tsx:94-95 | Sorting by size gives non-increasing sizes and a permutation of the input. |
| MediaLibrary.VisibleBySize | src/components/admin/MediaLibrary.tsx:86-99 | The grid under the size ordering is a permutation of the filtered items, largest first. |
| Carousel.Next | src/components/Testimonials.tsx:33-35 | Forward keeps the index in `[0, n)`. |
| Carousel.Prev | src/components/Testimonials.tsx:37-39 | Back keeps the index in `[0, n)`. |
| Carousel.NextStep | src/components/Testimonials.tsx:33-35 | Forward adds one and wraps the last index to 0. |
| Carousel.PrevStep | src/components/Testimonials.tsx:37-39 | Back subtracts one and wraps 0 to the last index. |
| Carousel.NextPrevInverse | src/components/Testimonials.tsx:33-39 | Forward after back, and back after forward, return the original index. |
| Carousel.Advance | src/components/Testimonials.tsx:33-35 | Any number of forward steps stays in range. |
| Carousel.AdvanceWithinRound | src/components/Testimonials.tsx:33-35 | `k <= n` steps land `k` places on, wrapping once past the end. |
| Carousel.FullRound | src/components/Testimonials.tsx:33-35 | `n` forward steps return to the starting index. |
| Carousel.StartInRange | src/components/Testimonials.tsx:31-35 | From the initial index 0 the carousel stays among its 3 testimonials. |
| Age.AgeOn | src/components/Hero3D.tsx:119-128 | The age is the year difference, or one less. |
| Age.OnBirthday | src/components/Hero3D.tsx:122-126 | On the birthday the age is the year difference. |
| Age.BeforeBirthdayOneLess | src/components/Hero3D.tsx:123-125 | Before this year's birthday the age is the year difference minus one. |
| Age.AnniversariesPassed | src/components/Hero3D.tsx:119-128 | The age is the unique count `k` whose `k`-th anniversary is on or before today while the next one is later. |
| Age.Monotone | src/components/Hero3D.tsx:119-128 | The age never decreases as today advances. |
| Age.NonNegative | src/components/Hero3D.tsx:119-128 | On or after the birth date the age is at least 0. |
| LoadingScreen.Step | src/components/LoadingScreen.tsx:42-47 | A tick raises progress below 100 and never goes above 100. |
| LoadingScreen.AfterIsMin | src/components/LoadingScreen.tsx:38-47 | After `k` ticks from 0 the progress is `min(k, 100)`. |
| LoadingScreen.InRangeAndRising | src/components/LoadingScreen.tsx:38-47 | Progress stays in `[0, 100]` and never decreases. |
| LoadingScreen.ReachesDone | src/components/LoadingScreen.tsx:42-47 | Progress reaches 100 exactly after 100 ticks, and 100 is a fixed point. |
| LoadingScreen.OverlayFor | src/components/LoadingScreen.tsx:57-59 | The overlay is transparent and non-interactive exactly when progress is 100. |
| LoadingScreen.OverlayGoneAfter | src/components/LoadingScreen.tsx:38-59 | The overlay is gone exactly once 100 ticks have passed. |

## Left out

- File system, request parsing and response plumbing: `readFile`, `writeFile`,
  `readdir`, `stat`, `formData()` and `json()` are replaced by their possible
  outcomes. These are a `StoreFile` that is readable or not, a form map or
  `None`, and success flags. A failed write is modelled as leaving the file
  unchanged.
- JSON serialisation of the projects file is left out: the file is a sequence of
  records. `JSON.parse` / `JSON.stringify` of the image list are parameters. A
  JSON value that parses but is not an array of strings is not modelled.
- Form fields holding files where text is expected are not modelled; only the
  upload route's `image` field may be a file.
- `Date.now()`, `uuidv4()`, `bcryptjs.compare` and `hashSync` are parameters. Ids
  are not assumed unique, and UUIDs are assumed to have the 8-4-4-4-12
  lower-case hex shape.
- Concurrency: the projects route reads, modifies and writes the file with no
  lock, so overlapping requests can lose a write. Overlap is out of scope, and
  each handler is one atomic step.
- Image integrity: nothing in the code checks that a record's image urls name
  stored files, or that a file about to be deleted is unreferenced. The model
  has no such relation to preserve.
- Cascading deletes: the project DELETE route (`projects/[id]`) first tries to
  unlink each of the record's image files under `public/`, ignoring any failure.
  Only then does it remove the record and save the list. That route is not part
  of this model, so the cascade into the media library is not modelled.
- Login request and logging: a JSON body whose `password` is not a string (a
  number, say) is not represented, because `LoginRequest` holds an optional
  string. The route's `console.log` of the received password and of the raw and
  cleaned hash is left out, since logging is output.
- The browser's own form validation is left out. This covers `required` inputs
  and `type="url"` on the live-demo link, which would stop some submissions
  before `handleSubmit` runs.
- The `inProgress` flag has no input in the edit form, so any edit stores
  `false`. This appears as a side condition of `EditRoundTrip` rather than as a
  separate finding.
- Project deletion and media deletion routes (`projects/[id]`, `media/[id]`)
  are not part of this model. The screens' delete handlers are modelled with
  the request outcome as a parameter.
- The CV route has only a GET, which serves a fixed file. The uploader's POST
  and DELETE requests have no handler in this code, so the CV cannot be
  replaced or removed. `CvUploader` takes their
  outcome as a parameter.
- MediaLibrary's date and name orderings depend on date parsing and
  `localeCompare`, and are left out. Only the size ordering is modelled.
- MediaLibrary.SortBySize: stability of the sort (equal sizes keep their order)
  is built into `Insert` but not stated as a property.
- MediaLibrary.FilterItems: `toLowerCase` is modelled on ASCII only; Unicode
  case mapping is left out.
- Age.AgeOn: works on (year, month, day) triples. Parsing `'2006-10-12'` as UTC
  while the getters read local time is not modelled.
- JsNumber.IntToString: `String(n)` switches to exponent notation from 1e21
  upward; integers that large are not modelled. Ids beyond 2^53 losing
  precision as JavaScript numbers are not modelled either.
- Page rendering, animation, 3D scenes, GitHub statistics and the other
  presentation components are not part of this model.

## Findings

| source | as written | input that shows it | evidently intended | confidence | as-written member | corrected member |
|---|---|---|---|---|---|---|
| src/components/admin/ProjectsManager.tsx:56-81 | The edit form has no `id` input and `handleSubmit` adds none, so PUT parses `parseInt(null)` as NaN, finds no record, and answers 404 for every edit | editing any stored record, e.g. id 1700000000000, with any inputs | the edit request carries the record's id, so PUT replaces that record | high, not executed | ProjectsManager.EditNeverFound | ProjectsManager.SubmitRequestFixed, ProjectsManager.EditFixedFindsRecord |
| src/components/admin/ProjectsManager.tsx:61-75 | `images` is appended only when new files were chosen, and the route decodes a missing field as `[]`, so an edit without new files would wipe the record's images | editing a record with images `["/uploads/a.png"]` and choosing no files | an edit without new files keeps the record's images | high, not executed | ProjectsManager.EditWithoutUploadsDropsImages | ProjectsManager.SubmitRequestFixed, ProjectsManager.EditFixedFindsRecord |
| src/app/api/admin/projects/route.ts:54 | The route splits features on LF only, but the browser sends the textarea's line breaks as CR LF. Every feature but the last keeps a trailing CR, and an edit adds one to features that had none | features `["Fast", "Small"]` are shown as `Fast` LF `Small`, sent as `Fast` CR LF `Small`, and stored as `["Fast\r", "Small"]` | one feature per line whatever the line break, with no CR kept | medium, not executed | FormFields.FeaturesGainCarriageReturn | FormFields.DecodeFeaturesFixed, FormFields.FixedFeaturesRoundTrip |
| src/app/api/admin/media/route.ts:27-29 | The id is the text before the first hyphen, but the stored name starts with a hyphenated UUID. The id is therefore only the UUID's first 8 characters, and the other four groups end up in the name | stored name `0123abcd-4567-89ab-cdef-0123456789ab-cat.png` gives id `0123abcd` and name `4567-89ab-cdef-0123456789ab-cat.png` | the id is the whole UUID and the name is the sanitised original name | high, not executed | Media.UploadedIdIsFirstGroup | Media.UploadedIdFixed, Media.IdAndNameFixed |

=== FILE: admin_gate.dfy ===
/** The request middleware guarding the admin pages: it lets a request through
    or redirects it to the login page, deciding on the path and on whether an
    `admin_token` cookie is present. */
module AdminGate {
  import opened Common

  datatype Decision = Next | Redirect(target: string)

  const LoginPath: string := "/admin/login"

  /** The matcher `/admin/:path*`: `/admin` itself or anything below it. */
  predicate Matched(path: string)
  {
    path == "/admin" || StartsWith(path, "/admin/")
  }

  /** The middleware body. `token` is the `admin_token` cookie's value, `None`
      when the request carries no such cookie. */
  function Middleware(path: string, token: Option<string>): (r: Decision)
    ensures r.Redirect? ==> r.target == LoginPath
    ensures r.Redirect? ==> StartsWith(path, "/admin") && token.None?
  {
    if StartsWith(path, "/admin") then
      if path == LoginPath || StartsWith(path, "/admin/api/") then Next
      else if token.None? then Redirect(LoginPath)
      else Next
    else Next
  }

  /** What a request meets: the middleware runs only on matched paths. A
      request is redirected, always to the login page, exactly when its path
      is matched, is neither the login page nor under `/admin/api/`, and it
      carries no cookie. */
  function Gate(path: string, token: Option<string>): (r: Decision)
    ensures r.Redirect? ==> r.target == LoginPath
    ensures r.Redirect? <==>
      Matched(path) && path != LoginPath && !StartsWith(path, "/admin/api/") && token.None?
  {
    if Matched(path) then
      assert StartsWith(path, "/admin") by { MatchedIsAdmin(path); }
      Middleware(path, token)
    else Next
  }

  /** Every matched path starts with `/admin`, so the middleware body decides it. */
  lemma MatchedIsAdmin(path: string)
    requires Matched(path)
    ensures StartsWith(path, "/admin")
  {
    if path != "/admin" {
      assert path[..6] == path[..7][..6];
    }
  }

  /** A matched admin page requested without the cookie is sent to the login page. */
  lemma GateRedirects(path: string)
    requires Matched(path) && path != LoginPath && !StartsWith(path, "/admin/api/")
    ensures Gate(path, None) == Redirect(LoginPath)
  {
    MatchedIsAdmin(path);
    MissingCookieRedirects(path);
  }

  /** Any path outside `/admin` passes. */
  lemma OutsideAdminPasses(path: string, token: Option<string>)
    requires !StartsWith(path, "/admin")
    ensures Middleware(path, token) == Next && Gate(path, token) == Next
  {
  }

  /** The redirect target is itself never redirected, so no redirect loop. */
  lemma NoRedirectLoop(path: string, token: Option<string>, again: Option<string>)
    ensures Middleware(path, token).Redirect? ==> Gate(Middleware(path, token).target, again) == Next
  {
    assert StartsWith(LoginPath, "/admin");
  }

  /** Paths under `/admin/api/` pass whatever the cookie. */
  lemma AdminApiPasses(path: string, token: Option<string>)
    requires StartsWith(path, "/admin/api/")
    ensures Middleware(path, token) == Next
  {
    assert path[..6] == path[..11][..6];
  }

  /** Every other admin path without the cookie is sent to the login page. */
  lemma MissingCookieRedirects(path: string)
    requires StartsWith(path, "/admin") && path != LoginPath && !StartsWith(path, "/admin/api/")
    ensures Middleware(path, None) == Redirect(LoginPath)
  {
  }

  /** Presence alone grants passage: any cookie value, even empty, gives the
      same decision as any other. */
  lemma CookieValueIgnored(path: string, v1: string, v2: string)
    ensures Middleware(path, Some(v1)) == Middleware(path, Some(v2)) == Next
  {
  }

  /** The routes that write content live under `/api/admin/`, which does not
      start with `/admin`: the gate never stops them, cookie or not. */
  lemma WriteRoutesUngated(path: string, token: Option<string>)
    requires StartsWith(path, "/api/admin/")
    ensures Gate(path, token) == Next
  {
    assert path[..11] == "/api/admin/";
    assert path[2] == 'p';
  }
}

=== FILE: age.dfy ===
/** The hero section's age calculation, over calendar dates written as
    (year, month, day) triples. */
module Age {
  datatype Date = Date(year: int, month: int, day: int)

  /** `a` is on or before `b` in calendar order. */
  predicate OnOrBefore(a: Date, b: Date)
  {
    a.year < b.year
    || (a.year == b.year && (a.month < b.month || (a.month == b.month && a.day <= b.day)))
  }

  /** `today`'s month and day come before `birth`'s. */
  predicate BeforeBirthday(birth: Date, today: Date)
  {
    today.month < birth.month || (today.month == birth.month && today.day < birth.day)
  }

  /** The year difference, one less while this year's birthday is still ahead. */
  function AgeOn(birth: Date, today: Date): (r: int)
    ensures r == today.year - birth.year || r == today.year - birth.year - 1
  {
    var age := today.year - birth.year;
    if BeforeBirthday(birth, today) then age - 1 else age
  }

  /** The `k`-th anniversary of `birth`. */
  function Anniversary(birth: Date, k: int): Date
  {
    Date(birth.year + k, birth.month, birth.day)
  }

  /** On the birthday itself the age is the year difference. */
  lemma OnBirthday(birth: Date, year: int)
    ensures AgeOn(birth, Date(year, birth.month, birth.day)) == year - birth.year
  {
  }

  /** Before this year's birthday it is one less. */
  lemma BeforeBirthdayOneLess(birth: Date, today: Date)
    requires BeforeBirthday(birth, today)
    ensures AgeOn(birth, today) == today.year - birth.year - 1
  {
  }

  /** The age counts the anniversaries passed: the `age`-th anniversary is on or
      before today and the next one is after it, and no other count has both
      properties. */
  lemma AnniversariesPassed(birth: Date, today: Date, k: int)
    ensures OnOrBefore(Anniversary(birth, AgeOn(birth, today)), today)
    ensures !OnOrBefore(Anniversary(birth, AgeOn(birth, today) + 1), today)
    ensures OnOrBefore(Anniversary(birth, k), today) && !OnOrBefore(Anniversary(birth, k + 1), today)
            ==> k == AgeOn(birth, today)
  {
  }

  /** The age never decreases as today moves forward. */
  lemma Monotone(birth: Date, t1: Date, t2: Date)
    requires OnOrBefore(t1, t2)
    ensures AgeOn(birth, t1) <= AgeOn(birth, t2)
  {
    var a := AgeOn(birth, t1);
    AnniversariesPassed(birth, t1, a);
    AnniversariesPassed(birth, t2, a);
    assert OnOrBefore(Anniversary(birth, a), t2);
  }

  /** From the birth date onward the age is never negative. */
  lemma NonNegative(birth: Date, today: Date)
    requires OnOrBefore(birth, today)
    ensures AgeOn(birth, today) >= 0
  {
    Monotone(birth, birth, today);
  }
}

=== FILE: carousel.dfy ===
/** The testimonial carousel: an index into a fixed list, moved one step
    forward or back with wrap-around. */
module Carousel {
  import JsNumber

  /** The number of testimonials on the page. */
  const Count: int := 3

  /** The index the carousel starts at. */
  const Start: int := 0

  /** `(i + 1) % n`, with the language's truncating remainder. */
  function Next(i: int, n: int): (r: int)
    requires n > 0
    ensures 0 <= i < n ==> 0 <= r < n
  {
    JsNumber.Rem(i + 1, n)
  }

  /** `(i - 1 + n) % n`. */
  function Prev(i: int, n: int): (r: int)
    requires n > 0
    ensures 0 <= i < n ==> 0 <= r < n
  {
    JsNumber.Rem(i - 1 + n, n)
  }

  /** A remainder of a value within one lap of the range. */
  lemma RemOneLap(a: int, n: int)
    requires 0 <= a < 2 * n
    ensures JsNumber.Rem(a, n) == if a < n then a else a - n
  {
    if a >= n {
      assert a == 1 * n + (a - n);
    }
  }

  /** Forward is "add one, wrapping the last index to the first". */
  lemma NextStep(i: int, n: int)
    requires 0 <= i < n
    ensures Next(i, n) == if i + 1 < n then i + 1 else 0
  {
    RemOneLap(i + 1, n);
  }

  /** Back is "subtract one, wrapping the first index to the last". */
  lemma PrevStep(i: int, n: int)
    requires 0 <= i < n
    ensures Prev(i, n) == if i > 0 then i - 1 else n - 1
  {
    RemOneLap(i - 1 + n, n);
  }

  /** Back then forward, and forward then back, return to the same index. */
  lemma NextPrevInverse(i: int, n: int)
    requires 0 <= i < n
    ensures Next(Prev(i, n), n) == i
    ensures Prev(Next(i, n), n) == i
  {
    PrevStep(i, n);
    NextStep(Prev(i, n), n);
    NextStep(i, n);
    PrevStep(Next(i, n), n);
  }

  /** `k` steps forward. */
  function Advance(i: int, k: nat, n: int): (r: int)
    requires n > 0
    requires 0 <= i < n
    ensures 0 <= r < n
  {
    if k == 0 then i else Next(Advance(i, k - 1, n), n)
  }

  /** Up to one full round, `k` steps forward land `k` places on, wrapped
      once past the end. */
  lemma {:induction false} AdvanceWithinRound(i: int, k: nat, n: int)
    requires 0 <= i < n
    requires k <= n
    ensures Advance(i, k, n) == if i + k < n then i + k else i + k - n
  {
    if k > 0 {
      AdvanceWithinRound(i, k - 1, n);
      NextStep(Advance(i, k - 1, n), n);
    }
  }

  /** A full round of `n` steps forward returns to the starting index. */
  lemma FullRound(i: int, n: int)
    requires 0 <= i < n
    ensures Advance(i, n as nat, n) == i
  {
    AdvanceWithinRound(i, n as nat, n);
  }

  /** The carousel's own index stays among its testimonials. */
  lemma StartInRange(k: nat)
    ensures 0 <= Advance(Start, k, Count) < Count
  {
  }
}

=== FILE: common.dfy ===
/** Shared vocabulary: optional values, order-preserving filtering and the
    prefix / substring tests the routes and components use on strings. */
module Common {

  /** A value that may be absent (JavaScript `null` / `undefined`). */
  datatype Option<+T> = None | Some(value: T)

  /** `xs.filter(keep)`: the elements satisfying `keep`, in their original order. */
  function Keep<T(==)>(xs: seq<T>, keep: T -> bool): (r: seq<T>)
    ensures |r| <= |xs|
    ensures forall i :: 0 <= i < |r| ==> keep(r[i]) && r[i] in xs
    ensures forall i :: 0 <= i < |xs| && keep(xs[i]) ==> xs[i] in r
  {
    if |xs| == 0 then []
    else if keep(xs[0]) then [xs[0]] + Keep(xs[1..], keep)
    else Keep(xs[1..], keep)
  }

  /** Filtering distributes over concatenation: together with the one-element
      cases this pins `Keep` down as the in-order subsequence of kept elements. */
  lemma {:induction false} KeepAppend<T>(a: seq<T>, b: seq<T>, keep: T -> bool)
    ensures Keep(a + b, keep) == Keep(a, keep) + Keep(b, keep)
  {
    if |a| == 0 {
      assert a + b == b;
    } else {
      assert (a + b)[1..] == a[1..] + b;
      KeepAppend(a[1..], b, keep);
    }
  }

  /** A single element is kept exactly when it passes. */
  lemma KeepOne<T>(x: T, keep: T -> bool)
    ensures Keep([x], keep) == if keep(x) then [x] else []
  {
    assert [x][1..] == [];
  }

  /** Filtering keeps a sequence whose every element passes unchanged. */
  lemma {:induction false} KeepAll<T>(xs: seq<T>, keep: T -> bool)
    requires forall i :: 0 <= i < |xs| ==> keep(xs[i])
    ensures Keep(xs, keep) == xs
  {
    if |xs| > 0 {
      KeepAll(xs[1..], keep);
    }
  }

  /** Filtering twice with the same test is filtering once. */
  lemma KeepIdempotent<T>(xs: seq<T>, keep: T -> bool)
    ensures Keep(Keep(xs, keep), keep) == Keep(xs, keep)
  {
    KeepAll(Keep(xs, keep), keep);
  }

  /** `s.startsWith(prefix)`. */
  predicate StartsWith(s: string, prefix: string)
  {
    |prefix| <= |s| && s[..|prefix|] == prefix
  }

  /** `hay.includes(needle)`: `needle` occurs at some position of `hay`. */
  predicate Contains(hay: string, needle: string)
  {
    exists i | 0 <= i <= |hay| :: OccursAt(hay, needle, i)
  }

  /** `needle` occurs in `hay` starting at position `i`. */
  predicate OccursAt(hay: string, needle: string, i: int)
  {
    0 <= i && i + |needle| <= |hay| && hay[i..i + |needle|] == needle
  }

  /** Every string contains the empty string (at position 0). */
  lemma ContainsEmpty(hay: string)
    ensures Contains(hay, "")
  {
    assert OccursAt(hay, "", 0);
  }
}

=== FILE: cv_uploader.dfy ===
/** The CV panel of the admin screen: client-side validation of the chosen
    document, the upload request and the delete request, as transitions of
    the panel's state. */
module CvUploader {
  import opened Common

  /** The panel's state: the current CV url, whether an upload is running,
      and the error shown. */
  datatype CvState = CvState(currentCV: Option<string>, uploading: bool, error: Option<string>)

  const Initial: CvState := CvState(None, false, None)

  /** The chosen document's declared MIME type and size in bytes. */
  datatype CvFile = CvFile(mimeType: string, size: nat)

  /** How the upload request ended: a url from an ok reply, or any failure
      (rejected request, non-ok status, unreadable body). */
  datatype UploadResult = Uploaded(url: string) | UploadFailed

  /** How the delete request ended. */
  datatype DeleteResult = Deleted | DeleteFailed

  const PdfType: string := "application/pdf"
  const DocType: string := "application/msword"
  const DocxType: string := "application/vnd.openxmlformats-officedocument.wordprocessingml.document"

  /** 5 MiB. */
  const MaxBytes: nat := 5 * 1024 * 1024

  const TypeMessage: string := "Please upload a PDF or Word document"
  const SizeMessage: string := "File size should be less than 5MB"
  const UploadMessage: string := "Failed to upload CV. Please try again."
  const DeleteMessage: string := "Failed to delete CV. Please try again."

  predicate AllowedType(mimeType: string)
  {
    mimeType in [PdfType, DocType, DocxType]
  }

  /** The client-side checks in order: type first, then size. */
  function Validate(f: CvFile): (r: Option<string>)
    ensures r.None? <==> AllowedType(f.mimeType) && f.size <= MaxBytes
    ensures !AllowedType(f.mimeType) ==> r == Some(TypeMessage)
    ensures AllowedType(f.mimeType) && f.size > MaxBytes ==> r == Some(SizeMessage)
  {
    if !AllowedType(f.mimeType) then Some(TypeMessage)
    else if f.size > MaxBytes then Some(SizeMessage)
    else None
  }

  /** The state while an accepted document is being sent. */
  function Sending(s: CvState): (r: CvState)
    ensures r.uploading && r.error.None? && r.currentCV == s.currentCV
  {
    s.(error := None, uploading := true)
  }

  /** The file input's change handler: the final state, and whether an upload
      request was sent. No file changes nothing; a rejected file only sets the
      error; an accepted one is sent, and `uploading` ends false either way. */
  function FileChange(s: CvState, file: Option<CvFile>, result: UploadResult): (r: (CvState, bool))
    ensures r.1 <==> file.Some? && Validate(file.value).None?
    ensures file.None? ==> r.0 == s
    ensures file.Some? && Validate(file.value).Some? ==>
      r.0 == s.(error := Validate(file.value))
    ensures r.1 ==> !r.0.uploading
    ensures r.1 && result.Uploaded? ==> r.0.currentCV == Some(result.url) && r.0.error.None?
    ensures r.1 && result.UploadFailed? ==> r.0.currentCV == s.currentCV && r.0.error == Some(UploadMessage)
  {
    if file.None? then (s, false)
    else
      match Validate(file.value)
      case Some(message) => (s.(error := Some(message)), false)
      case None =>
        var sending := Sending(s);
        var done := match result
          case Uploaded(url) => sending.(currentCV := Some(url))
          case UploadFailed => sending.(error := Some(UploadMessage));
        (done.(uploading := false), true)
  }

  /** The delete handler. With no current CV (an empty url counts as none) or
      without confirmation nothing happens; otherwise a successful request
      clears the CV and a failed one only sets the error. */
  function Delete(s: CvState, confirmed: bool, result: DeleteResult): (r: CvState)
    ensures s.currentCV.None? || s.currentCV == Some("") || !confirmed ==> r == s
    ensures s.currentCV.Some? && s.currentCV != Some("") && confirmed ==>
      (if result.Deleted? then r == s.(currentCV := None) else r == s.(error := Some(DeleteMessage)))
  {
    if s.currentCV.None? || s.currentCV.value == "" || !confirmed then s
    else if result.Deleted? then s.(currentCV := None)
    else s.(error := Some(DeleteMessage))
  }

  /** A type error wins over a size error, whatever the size. */
  lemma TypeCheckedFirst(mimeType: string, size: nat)
    requires !AllowedType(mimeType)
    ensures Validate(CvFile(mimeType, size)) == Some(TypeMessage)
  {
  }

  /** Exactly the three document types of at most 5 MiB are sent. */
  lemma AcceptedFiles(s: CvState, f: CvFile, result: UploadResult)
    ensures FileChange(s, Some(f), result).1
            <==> (f.mimeType == PdfType || f.mimeType == DocType || f.mimeType == DocxType) && f.size <= MaxBytes
  {
  }
}

=== FILE: form_fields.dfy ===
/** How a record's two list fields travel through the edit form and back:
    features one per line in a textarea, technologies joined by ", " in a
    text input. First as typed, then as the browser actually sends them
    (see FormTransport). */
module FormFields {
  import opened Common
  import opened Text
  import opened FormTransport
  import opened ProjectStore

  /** Features as typed: joining with newlines and decoding gives the list
      back exactly when no feature is empty or holds a newline. */
  lemma {:induction false} FeaturesRoundTrip(features: seq<string>)
    ensures DecodeFeatures(Join(features, "\n")) == features
            <==> forall i :: 0 <= i < |features| ==> features[i] != "" && '\n' !in features[i]
  {
    if forall i :: 0 <= i < |features| ==> features[i] != "" && '\n' !in features[i] {
      if |features| == 0 {
        assert Split("", '\n') == [""];
      } else {
        SplitJoin(features, '\n');
        KeepAll(features, NonEmpty);
      }
    }
  }

  lemma JoinCommaSpace(technologies: seq<string>)
    requires |technologies| >= 2
    ensures Join(technologies, ", ")
            == technologies[0] + [','] + ([' '] + Join(technologies[1..], ", "))
  {
    var t0, rest := technologies[0], Join(technologies[1..], ", ");
    assert Join(technologies, ", ") == t0 + ", " + rest;
    CommaSpace(t0, rest);
  }

  lemma CommaSpace(a: string, b: string)
    ensures a + ", " + b == a + [','] + ([' '] + b)
  {
    assert ", " == [','] + [' '];
  }

  /** Joining with ", " then splitting on commas and trimming gives the list back. */
  lemma {:induction false} TechnologiesSplitJoin(technologies: seq<string>)
    requires |technologies| >= 1
    requires forall i :: 0 <= i < |technologies| ==> Trimmed(technologies[i]) && ',' !in technologies[i]
    ensures TrimAll(Split(Join(technologies, ", "), ',')) == technologies
  {
    var t0 := technologies[0];
    if |technologies| == 1 {
      SplitNoSeparator(t0, ',');
      TrimAllTrimmedCons(t0, []);
    } else {
      var tail := technologies[1..];
      var joined := Join(tail, ", ");
      var pieces := Split([' '] + joined, ',');
      assert Split(Join(technologies, ", "), ',') == [t0] + pieces by {
        JoinCommaSpace(technologies);
        SplitFirst(t0, ',', [' '] + joined);
      }
      assert TrimAll(pieces) == tail by {
        TechnologiesSplitJoin(tail);
        TrimAllSplitLeadingSpace(joined, ',');
      }
      TrimAllTrimmedCons(t0, pieces);
      assert [t0] + tail == technologies;
    }
  }

  /** Technologies as typed survive exactly when there is at least one
      and each is already trimmed and free of commas (an empty list comes
      back as one empty entry). */
  lemma {:induction false} TechnologiesRoundTrip(technologies: seq<string>)
    ensures DecodeTechnologies(Join(technologies, ", ")) == technologies
            <==> |technologies| >= 1
                 && forall i :: 0 <= i < |technologies| ==> Trimmed(technologies[i]) && ',' !in technologies[i]
  {
    if |technologies| >= 1 && forall i :: 0 <= i < |technologies| ==> Trimmed(technologies[i]) && ',' !in technologies[i] {
      TechnologiesSplitJoin(technologies);
    }
  }

  /** The lines as the route splits them on LF after they were joined with
      CR LF: every line but the last keeps the CR. */
  function WithCarriageReturns(lines: seq<string>): (r: seq<string>)
    ensures |r| == |lines|
    ensures forall i :: 0 <= i < |lines| ==> r[i] == if i < |lines| - 1 then lines[i] + "\r" else lines[i]
  {
    seq(|lines|, i requires 0 <= i < |lines| => if i < |lines| - 1 then lines[i] + "\r" else lines[i])
  }

  lemma {:induction false} SplitCrlfJoin(lines: seq<string>)
    requires |lines| >= 1
    requires forall i :: 0 <= i < |lines| ==> NoLineBreak(lines[i])
    ensures Split(Join(lines, "\r\n"), '\n') == WithCarriageReturns(lines)
  {
    if |lines| == 1 {
      SplitNoSeparator(lines[0], '\n');
    } else {
      var first, rest := lines[0] + "\r", Join(lines[1..], "\r\n");
      assert Split(rest, '\n') == WithCarriageReturns(lines[1..]) by {
        SplitCrlfJoin(lines[1..]);
      }
      assert Split(Join(lines, "\r\n"), '\n') == [first] + Split(rest, '\n') by {
        assert Join(lines, "\r\n") == lines[0] + "\r\n" + rest;
        assert lines[0] + "\r\n" + rest == first + ['\n'] + rest;
        assert '\n' !in first;
        SplitFirst(first, '\n', rest);
      }
      var tail := WithCarriageReturns(lines[1..]);
      assert forall i :: 1 <= i < |lines| ==> tail[i - 1] == WithCarriageReturns(lines)[i];
      assert WithCarriageReturns(lines) == [first] + tail;
    }
  }

  /** A feature ending in a carriage return, with no other line break. */
  predicate CrLine(f: string)
  {
    |f| >= 1 && f[|f| - 1] == '\r' && NoLineBreak(f[..|f| - 1])
  }

  /** The feature lists the form stores: every feature but the last ends in
      a carriage return and holds no other line break; the last is not empty
      and holds no line break except possibly a final carriage return. */
  predicate FeatureLines(fs: seq<string>)
  {
    && (forall i :: 0 <= i < |fs| - 1 ==> CrLine(fs[i]))
    && (|fs| > 0 ==> fs[|fs| - 1] != "" && (NoLineBreak(fs[|fs| - 1]) || CrLine(fs[|fs| - 1])))
  }

  /** Every line but the last, with its carriage return, is a `CrLine`. */
  lemma CarriedLines(lines: seq<string>)
    requires forall i :: 0 <= i < |lines| ==> NoLineBreak(lines[i])
    ensures forall i :: 0 <= i < |lines| - 1 ==> CrLine(WithCarriageReturns(lines)[i])
  {
    var carried := WithCarriageReturns(lines);
    forall i | 0 <= i < |lines| - 1
      ensures CrLine(carried[i])
    {
      assert carried[i][..|carried[i]| - 1] == lines[i];
    }
  }

  /** Every line but the last carries its CR, so only the last can be empty. */
  lemma CarriedFront(lines: seq<string>)
    requires |lines| >= 1
    ensures var n, carried := |lines|, WithCarriageReturns(lines);
      && carried == carried[..n - 1] + [lines[n - 1]]
      && Keep(carried[..n - 1], NonEmpty) == carried[..n - 1]
  {
    var n, carried := |lines|, WithCarriageReturns(lines);
    var front := carried[..n - 1];
    forall i | 0 <= i < |front|
      ensures NonEmpty(front[i])
    {
      assert front[i] == lines[i] + "\r";
    }
    KeepAll(front, NonEmpty);
  }

  /** Only an empty last line is dropped as empty: every other line still
      holds its carriage return. */
  lemma KeepCarried(lines: seq<string>)
    requires |lines| >= 1
    ensures var carried := WithCarriageReturns(lines);
      Keep(carried, NonEmpty) == if lines[|lines| - 1] == "" then carried[..|lines| - 1] else carried
  {
    var n, carried := |lines|, WithCarriageReturns(lines);
    var front, last := carried[..n - 1], lines[n - 1];
    CarriedFront(lines);
    KeepAppend(front, [last], NonEmpty);
    KeepOne(last, NonEmpty);
    assert front + [] == front;
  }

  /** The carried lines, with an empty last line dropped, are of the stored shape. */
  lemma CarriedShape(lines: seq<string>)
    requires |lines| >= 1
    requires forall i :: 0 <= i < |lines| ==> NoLineBreak(lines[i])
    ensures var carried := WithCarriageReturns(lines);
      FeatureLines(if lines[|lines| - 1] == "" then carried[..|lines| - 1] else carried)
  {
    var n, carried := |lines|, WithCarriageReturns(lines);
    CarriedLines(lines);
    if lines[n - 1] == "" {
      var kept := carried[..n - 1];
      forall i | 0 <= i < |kept|
        ensures CrLine(kept[i])
      {
        assert kept[i] == carried[i];
      }
      if |kept| > 0 {
        assert kept[|kept| - 1] != "";
      }
    } else {
      assert carried[n - 1] == lines[n - 1];
    }
  }

  /** Whatever was typed into the features textarea, the list the route
      stores from the encoded value is of that shape. */
  lemma DecodedFeatureLines(text: string)
    ensures FeatureLines(DecodeFeatures(Crlf(text)))
  {
    var lines := Lines(text);
    var carried := WithCarriageReturns(lines);
    var kept := if lines[|lines| - 1] == "" then carried[..|lines| - 1] else carried;
    assert DecodeFeatures(Crlf(text)) == kept by {
      SplitCrlfJoin(lines);
      KeepCarried(lines);
    }
    CarriedShape(lines);
  }

  /** The line of a stored feature, without its final carriage return. */
  function Body(f: string): (r: string)
    ensures CrLine(f) ==> r + "\r" == f
    ensures !CrLine(f) ==> r == f
  {
    if CrLine(f) then f[..|f| - 1] else f
  }

  /** Behind its first feature, a stored list of two or more is a stored list,
      and that first feature ends in its carriage return. */
  lemma FeatureLinesTail(fs: seq<string>)
    requires |fs| >= 2 && FeatureLines(fs)
    ensures CrLine(fs[0]) && FeatureLines(fs[1..])
  {
    var tail := fs[1..];
    forall i | 0 <= i < |tail| - 1
      ensures CrLine(tail[i])
    {
      assert tail[i] == fs[i + 1];
    }
  }

  /** The bodies of the features, in order. */
  function Bodies(fs: seq<string>): (r: seq<string>)
    ensures |r| == |fs|
    ensures forall i :: 0 <= i < |fs| ==> r[i] == Body(fs[i])
  {
    if |fs| == 0 then [] else [Body(fs[0])] + Bodies(fs[1..])
  }

  /** The lines the textarea shows for a stored list: the bodies, and an
      empty last line after a final carriage return. */
  function StoredLines(fs: seq<string>): (r: seq<string>)
    requires |fs| >= 1
    ensures |r| == if CrLine(fs[|fs| - 1]) then |fs| + 1 else |fs|
    ensures forall i :: 0 <= i < |fs| ==> r[i] == Body(fs[i])
    ensures CrLine(fs[|fs| - 1]) ==> r[|fs|] == ""
  {
    Bodies(fs) + if CrLine(fs[|fs| - 1]) then [""] else []
  }

  /** No line of a stored list holds a line break, and the last is empty
      exactly after a final carriage return. */
  lemma StoredLinesNoBreak(fs: seq<string>)
    requires |fs| >= 1 && FeatureLines(fs)
    ensures var r := StoredLines(fs);
      && (forall i :: 0 <= i < |r| ==> NoLineBreak(r[i]))
      && (r[|r| - 1] == "" <==> CrLine(fs[|fs| - 1]))
  {
    var n, r := |fs|, StoredLines(fs);
    forall i | 0 <= i < n
      ensures NoLineBreak(r[i])
    {
      if i < n - 1 {
        assert CrLine(fs[i]);
      }
    }
  }

  /** Behind the first feature, the lines are those of the rest of the list. */
  lemma StoredLinesCons(fs: seq<string>)
    requires |fs| >= 2
    ensures StoredLines(fs) == [Body(fs[0])] + StoredLines(fs[1..])
  {
    assert fs[1..][|fs| - 2] == fs[|fs| - 1];
    var extra := if CrLine(fs[|fs| - 1]) then [""] else [];
    AppendAssoc([Body(fs[0])], Bodies(fs[1..]), extra);
  }

  lemma AppendAssoc<T>(a: seq<T>, b: seq<T>, c: seq<T>)
    ensures (a + b) + c == a + (b + c)
  {
  }

  /** A line, CR, then LF and more text: the line, CR LF, the text. */
  lemma CrThenLf(line: string, more: string)
    ensures line + "\r" + "\n" + more == line + "\r\n" + more
  {
    assert "\r" + "\n" == "\r\n";
  }

  /** The lines of a stored feature list joined for the textarea. */
  lemma {:induction false} LinesOfStoredFeatures(fs: seq<string>)
    requires |fs| >= 1 && FeatureLines(fs)
    ensures Lines(Join(fs, "\n")) == StoredLines(fs)
    decreases |fs|
  {
    if |fs| == 1 {
      if CrLine(fs[0]) {
        LinesTrailingCr(Body(fs[0]));
      } else {
        LinesNoBreak(fs[0]);
      }
    } else {
      FeatureLinesTail(fs);
      var tail := fs[1..];
      var g, more := Body(fs[0]), Join(tail, "\n");
      assert Join(fs, "\n") == g + "\r\n" + more by {
        assert Join(fs, "\n") == fs[0] + "\n" + more;
        CrThenLf(g, more);
      }
      assert Lines(Join(fs, "\n")) == [g] + Lines(more) by {
        LinesFirst(g, "\r\n", more);
      }
      LinesOfStoredFeatures(tail);
      StoredLinesCons(fs);
    }
  }

  /** Each stored feature is its line with the carriage return put back. */
  lemma CarriedAt(fs: seq<string>, i: int)
    requires |fs| >= 1 && FeatureLines(fs) && 0 <= i < |fs|
    ensures WithCarriageReturns(StoredLines(fs))[i] == fs[i]
  {
    var lines := StoredLines(fs);
    if i < |lines| - 1 {
      assert CrLine(fs[i]);
      assert WithCarriageReturns(lines)[i] == Body(fs[i]) + "\r";
    } else {
      assert !CrLine(fs[i]);
    }
  }

  /** The lines of a stored list, with their carriage returns put back,
      are the list (and an empty line after a final carriage return). */
  lemma CarriedBodies(fs: seq<string>)
    requires |fs| >= 1 && FeatureLines(fs)
    ensures var n, carried := |fs|, WithCarriageReturns(StoredLines(fs));
      (if CrLine(fs[n - 1]) then carried[..n] else carried) == fs
  {
    var n, carried := |fs|, WithCarriageReturns(StoredLines(fs));
    var front := if CrLine(fs[n - 1]) then carried[..n] else carried;
    forall i | 0 <= i < n
      ensures front[i] == fs[i]
    {
      CarriedAt(fs, i);
    }
  }

  /** The stored lines, sent with CR LF and split again on LF, decode to the list. */
  lemma StoredLinesDecode(fs: seq<string>)
    requires |fs| >= 1 && FeatureLines(fs)
    ensures DecodeFeatures(Join(StoredLines(fs), "\r\n")) == fs
  {
    var lines := StoredLines(fs);
    var carried := WithCarriageReturns(lines);
    assert DecodeFeatures(Join(lines, "\r\n")) == Keep(carried, NonEmpty) by {
      StoredLinesNoBreak(fs);
      SplitCrlfJoin(lines);
    }
    CarriedBodies(fs);
    KeepCarried(lines);
  }

  /** A stored feature list comes back unchanged from the textarea. */
  lemma FeatureLinesSurvive(fs: seq<string>)
    requires FeatureLines(fs)
    ensures DecodeFeatures(Crlf(Join(fs, "\n"))) == fs
  {
    if |fs| == 0 {
      assert Crlf("") == "";
      assert Split("", '\n') == [""];
    } else {
      assert Crlf(Join(fs, "\n")) == Join(StoredLines(fs), "\r\n") by {
        LinesOfStoredFeatures(fs);
      }
      StoredLinesDecode(fs);
    }
  }

  /** Features through the form as the browser sends it: the list comes back
      exactly when it has the stored shape. */
  lemma FeaturesThroughForm(fs: seq<string>)
    ensures DecodeFeatures(Crlf(Join(fs, "\n"))) == fs <==> FeatureLines(fs)
  {
    if FeatureLines(fs) {
      FeatureLinesSurvive(fs);
    }
    DecodedFeatureLines(Join(fs, "\n"));
  }

  /** As written, plain features gain a carriage return: every feature but
      the last comes back from the form with a CR at its end, so a list of two
      or more never survives its first save unchanged. */
  lemma FeaturesGainCarriageReturn(fs: seq<string>)
    requires |fs| >= 1 && forall i :: 0 <= i < |fs| ==> fs[i] != "" && NoLineBreak(fs[i])
    ensures DecodeFeatures(Crlf(Join(fs, "\n"))) == WithCarriageReturns(fs)
    ensures |fs| >= 2 ==> DecodeFeatures(Crlf(Join(fs, "\n"))) != fs
  {
    assert Crlf(Join(fs, "\n")) == Join(fs, "\r\n") by {
      LinesJoin(fs, "\n");
    }
    assert DecodeFeatures(Join(fs, "\r\n")) == Keep(WithCarriageReturns(fs), NonEmpty) by {
      SplitCrlfJoin(fs);
    }
    KeepCarried(fs);
    if |fs| >= 2 {
      assert |WithCarriageReturns(fs)[0]| == |fs[0]| + 1;
    }
  }

  /** The split the route evidently intends: one feature per line whatever
      the line break (CR LF, CR or LF), empty lines dropped. */
  function DecodeFeaturesFixed(text: string): (r: seq<string>)
    ensures forall i :: 0 <= i < |r| ==> r[i] != "" && NoLineBreak(r[i])
    ensures forall i :: 0 <= i < |Lines(text)| && Lines(text)[i] != "" ==> Lines(text)[i] in r
  {
    var lines := Lines(text);
    var r := Keep(lines, NonEmpty);
    assert forall i :: 0 <= i < |r| ==> exists j :: 0 <= j < |lines| && lines[j] == r[i];
    r
  }

  /** With the corrected split, features come back from the form exactly
      when none is empty or holds a line break. */
  lemma FixedFeaturesRoundTrip(fs: seq<string>)
    ensures DecodeFeaturesFixed(Crlf(Join(fs, "\n"))) == fs
            <==> forall i :: 0 <= i < |fs| ==> fs[i] != "" && NoLineBreak(fs[i])
  {
    if forall i :: 0 <= i < |fs| ==> fs[i] != "" && NoLineBreak(fs[i]) {
      if |fs| == 0 {
        assert Lines("") == [""];
        assert Crlf("") == "";
        assert Keep([""], NonEmpty) == [];
      } else {
        LinesJoin(fs, "\n");
        LinesJoin(fs, "\r\n");
        KeepAll(fs, NonEmpty);
      }
    }
  }

  /** Technologies through the text input as the browser sends it: the list
      comes back exactly when there is at least one and each is trimmed, free
      of commas and free of line breaks. */
  lemma TechnologiesThroughForm(ts: seq<string>)
    ensures DecodeTechnologies(StripNewlines(Join(ts, ", "))) == ts
            <==> |ts| >= 1
                 && forall i :: 0 <= i < |ts| ==> Trimmed(ts[i]) && ',' !in ts[i] && NoLineBreak(ts[i])
  {
    if |ts| >= 1 && forall i :: 0 <= i < |ts| ==> Trimmed(ts[i]) && ',' !in ts[i] && NoLineBreak(ts[i]) {
      JoinAvoids(ts, ", ", '\r');
      JoinAvoids(ts, ", ", '\n');
      StripNewlinesKeeps(Join(ts, ", "));
      TechnologiesRoundTrip(ts);
    }
    DecodedTechnologiesNoBreak(StripNewlines(Join(ts, ", ")));
  }

  /** A text without line breaks decodes to technologies without line breaks. */
  lemma DecodedTechnologiesNoBreak(x: string)
    requires NoLineBreak(x)
    ensures var d := DecodeTechnologies(x);
      forall i :: 0 <= i < |d| ==> NoLineBreak(d[i])
  {
    var d := DecodeTechnologies(x);
    forall i | 0 <= i < |d|
      ensures NoLineBreak(d[i])
    {
      forall c | c in d[i]
        ensures c in x
      {
        SplitPieceChars(x, ',', i, c);
      }
    }
  }
}

=== FILE: form_transport.dfy ===
/** What the browser does to the admin form's values between the inputs and
    the route, following the HTML standard: a single-line input strips line
    breaks from its value, a url input also strips leading and trailing ASCII
    white space, and the multipart encoding of a form sends every line break
    of a textarea's value as CR LF. */
module FormTransport {
  import opened Common
  import opened Text

  predicate IsLineBreak(c: char)
  {
    c == '\r' || c == '\n'
  }

  /** Neither a carriage return nor a line feed. */
  predicate NoLineBreak(s: string)
  {
    '\r' !in s && '\n' !in s
  }

  predicate NotLineBreak(c: char)
  {
    !IsLineBreak(c)
  }

  /** The value sanitisation of a text input: every CR and LF removed, the
      other characters kept in order. */
  function StripNewlines(s: string): (r: string)
    ensures NoLineBreak(r)
    ensures |r| <= |s|
    ensures forall c :: c in r ==> c in s
  {
    var r := Keep(s, NotLineBreak);
    assert forall i :: 0 <= i < |r| ==> NotLineBreak(r[i]);
    r
  }

  /** A value survives the sanitisation exactly when it holds no line break. */
  lemma StripNewlinesKeeps(s: string)
    ensures StripNewlines(s) == s <==> NoLineBreak(s)
  {
    if NoLineBreak(s) {
      KeepAll(s, NotLineBreak);
    }
  }

  /** ASCII white space as the HTML standard defines it: tab, LF, FF, CR, space. */
  predicate IsAsciiSpace(c: char)
  {
    c == '\t' || c == '\n' || c == '\U{000C}' || c == '\r' || c == ' '
  }

  /** The value sanitisation of a url input: line breaks stripped, then ASCII
      white space cut from both ends. */
  function UrlValue(s: string): (r: string)
    ensures NoLineBreak(r) && TrimmedBy(r, IsAsciiSpace)
    ensures |r| <= |s|
  {
    var t := StripNewlines(s);
    TrimByKeepsChars(t, IsAsciiSpace);
    TrimBy(t, IsAsciiSpace)
  }

  /** A url value survives the sanitisation exactly when it holds no line
      break and has no ASCII white space at either end. */
  lemma UrlValueKeeps(s: string)
    ensures UrlValue(s) == s <==> NoLineBreak(s) && TrimmedBy(s, IsAsciiSpace)
  {
    if NoLineBreak(s) && TrimmedBy(s, IsAsciiSpace) {
      StripNewlinesKeeps(s);
    }
  }

  /** The lines of a textarea value, split at every CR LF, lone CR and lone
      LF; there is always one more line than line breaks. */
  function Lines(s: string): (r: seq<string>)
    ensures |r| >= 1
    ensures forall i :: 0 <= i < |r| ==> NoLineBreak(r[i])
    decreases |s|
  {
    if |s| == 0 then [""]
    else if |s| >= 2 && s[0] == '\r' && s[1] == '\n' then [""] + Lines(s[2..])
    else if IsLineBreak(s[0]) then [""] + Lines(s[1..])
    else
      var rest := Lines(s[1..]);
      [[s[0]] + rest[0]] + rest[1..]
  }

  /** Every CR is followed by an LF and every LF follows a CR: the text
      neither starts with LF nor ends with CR, and of two neighbouring
      characters the first is CR exactly when the second is LF. */
  predicate CrlfNormal(s: string)
  {
    && (|s| > 0 ==> s[0] != '\n' && s[|s| - 1] != '\r')
    && forall i, j :: 0 <= i < |s| && j == i + 1 && j < |s| ==> (s[i] == '\r' <==> s[j] == '\n')
  }

  /** A textarea value as the multipart encoding sends it: the same lines,
      every line break written CR LF. */
  function Crlf(s: string): (r: string)
    ensures CrlfNormal(r)
  {
    var lines := Lines(s);
    JoinCrlfNormal(lines);
    Join(lines, "\r\n")
  }

  /** A line-break-free string followed by CR LF and a normal text is normal. */
  lemma PrependLineNormal(a: string, b: string)
    requires NoLineBreak(a) && CrlfNormal(b)
    ensures CrlfNormal(a + "\r\n" + b)
  {
    var x := a + "\r\n" + b;
    var m := |a|;
    forall i, j | 0 <= i < |x| && j == i + 1 && j < |x|
      ensures x[i] == '\r' <==> x[j] == '\n'
    {
      if i < m {
        assert x[i] == a[i] && a[i] in a;
        if j < m {
          assert x[j] == a[j] && a[j] in a;
        }
      } else if i >= m + 2 {
        assert x[i] == b[i - m - 2] && x[j] == b[j - m - 2];
      } else if i == m + 1 {
        assert x[j] == b[0];
      }
    }
    if m > 0 {
      assert x[0] == a[0] && a[0] in a;
    }
    if |b| > 0 {
      assert x[|x| - 1] == b[|b| - 1];
    }
  }

  /** Lines joined with CR LF make a normal text. */
  lemma {:induction false} JoinCrlfNormal(lines: seq<string>)
    requires forall i :: 0 <= i < |lines| ==> NoLineBreak(lines[i])
    ensures CrlfNormal(Join(lines, "\r\n"))
  {
    if |lines| == 1 {
      assert Join(lines, "\r\n") == lines[0];
    } else if |lines| > 1 {
      JoinCrlfNormal(lines[1..]);
      PrependLineNormal(lines[0], Join(lines[1..], "\r\n"));
    }
  }

  /** Dropping a leading CR LF, or a leading character that is no line break,
      keeps a text normal. */
  lemma NormalTail(s: string, n: nat)
    requires CrlfNormal(s) && n <= |s|
    requires (n == 2 && s[..2] == "\r\n") || (n == 1 && !IsLineBreak(s[0]))
    ensures CrlfNormal(s[n..])
  {
    var t := s[n..];
    forall i, j | 0 <= i < |t| && j == i + 1 && j < |t|
      ensures t[i] == '\r' <==> t[j] == '\n'
    {
      assert t[i] == s[i + n] && t[j] == s[j + n];
    }
    if |t| > 0 {
      assert t[0] == s[n] && s[n - 1] != '\r';
      assert t[|t| - 1] == s[|s| - 1];
    }
  }

  /** Putting a character in front of the first line puts it in front of the text. */
  lemma JoinConsFirst(c: char, lines: seq<string>, sep: string)
    requires |lines| >= 1
    ensures Join([[c] + lines[0]] + lines[1..], sep) == [c] + Join(lines, sep)
  {
    var l := [[c] + lines[0]] + lines[1..];
    if |lines| > 1 {
      assert l[1..] == lines[1..];
    }
  }

  /** The lines of a normal text, joined with CR LF, give the text back. */
  lemma {:induction false} JoinLinesNormal(s: string)
    requires CrlfNormal(s)
    ensures Join(Lines(s), "\r\n") == s
    decreases |s|
  {
    if |s| > 0 {
      assert s[0] != '\n';
      if s[0] == '\r' {
        assert |s| >= 2 && s[1] == '\n';
        assert s[..2] == "\r\n";
        NormalTail(s, 2);
        JoinLinesNormal(s[2..]);
        var rest := Lines(s[2..]);
        assert Lines(s) == [""] + rest;
        assert ([""] + rest)[1..] == rest;
        assert s == "\r\n" + s[2..];
      } else {
        NormalTail(s, 1);
        JoinLinesNormal(s[1..]);
        JoinConsFirst(s[0], Lines(s[1..]), "\r\n");
        assert s == [s[0]] + s[1..];
      }
    }
  }

  /** The encoding leaves a textarea value as it is exactly when its line
      breaks already are CR LF. */
  lemma CrlfKeeps(s: string)
    ensures Crlf(s) == s <==> CrlfNormal(s)
  {
    if CrlfNormal(s) {
      JoinLinesNormal(s);
    }
  }

  /** A text without line breaks is one line. */
  lemma {:induction false} LinesNoBreak(a: string)
    requires NoLineBreak(a)
    ensures Lines(a) == [a]
    decreases |a|
  {
    if |a| > 0 {
      assert a[0] in a;
      assert NoLineBreak(a[1..]) by {
        assert forall c :: c in a[1..] ==> c in a;
      }
      LinesNoBreak(a[1..]);
      assert [a[0]] + a[1..] == a;
    }
  }

  /** The first line ends at the first line break, whether LF or CR LF. */
  lemma {:induction false} LinesFirst(a: string, brk: string, b: string)
    requires NoLineBreak(a) && (brk == "\n" || brk == "\r\n")
    ensures Lines(a + brk + b) == [a] + Lines(b)
    decreases |a|
  {
    var x := a + brk + b;
    if |a| == 0 {
      assert x == brk + b;
      assert x[|brk|..] == b;
    } else {
      assert a[0] in a;
      assert NoLineBreak(a[1..]) by {
        assert forall c :: c in a[1..] ==> c in a;
      }
      assert x[1..] == a[1..] + brk + b;
      LinesFirst(a[1..], brk, b);
      assert [a[0]] + a[1..] == a;
    }
  }

  /** Line-break-free lines joined with LF or CR LF split back into the same lines. */
  lemma {:induction false} LinesJoin(lines: seq<string>, brk: string)
    requires |lines| >= 1 && (brk == "\n" || brk == "\r\n")
    requires forall i :: 0 <= i < |lines| ==> NoLineBreak(lines[i])
    ensures Lines(Join(lines, brk)) == lines
  {
    if |lines| == 1 {
      LinesNoBreak(lines[0]);
    } else {
      LinesJoin(lines[1..], brk);
      LinesFirst(lines[0], brk, Join(lines[1..], brk));
      assert [lines[0]] + lines[1..] == lines;
    }
  }

  /** A lone CR at the end is a line break before an empty last line. */
  lemma LinesTrailingCr(a: string)
    requires NoLineBreak(a)
    ensures Lines(a + "\r") == [a, ""]
    decreases |a|
  {
    if |a| == 0 {
      assert a + "\r" == "\r";
      assert "\r"[1..] == "";
    } else {
      assert a[0] in a;
      assert NoLineBreak(a[1..]) by {
        assert forall c :: c in a[1..] ==> c in a;
      }
      assert (a + "\r")[1..] == a[1..] + "\r";
      LinesTrailingCr(a[1..]);
      assert [a[0]] + a[1..] == a;
    }
  }
}

=== FILE: hash_escape.dfy ===
/** The `$`-escaping the password script applies to a bcrypt hash before it is
    written into an environment file, and the unescaping that undoes it. */
module HashEscape {
  import opened Text

  /** `s.replace(/\$/g, '\\$')`: a backslash before every `$`. */
  function Escape(s: string): (r: string)
    ensures |r| == |s| + Count(s, '$')
    ensures |s| > 0 ==> |r| > 0 && r[|r| - 1] == s[|s| - 1]
    ensures |r| > 0 ==> r[0] != '$'
  {
    if |s| == 0 then ""
    else if s[0] == '$' then "\\$" + Escape(s[1..])
    else [s[0]] + Escape(s[1..])
  }

  /** `s.replace(/\\\$/g, '$')`: every backslash-dollar pair becomes `$`,
      scanning left to right. */
  function Unescape(s: string): (r: string)
    ensures |r| <= |s|
  {
    if |s| >= 2 && s[0] == '\\' && s[1] == '$' then "$" + Unescape(s[2..])
    else if |s| == 0 then ""
    else [s[0]] + Unescape(s[1..])
  }

  /** Escaping works character by character: a `$` becomes `\$` and every
      other character is kept. */
  lemma {:induction false} EscapeAppend(a: string, b: string)
    ensures Escape(a + b) == Escape(a) + Escape(b)
    ensures |a| == 1 ==> Escape(a) == if a[0] == '$' then "\\$" else a
  {
    if |a| > 0 {
      assert (a + b)[1..] == a[1..] + b;
      EscapeAppend(a[1..], b);
    } else {
      assert a + b == b;
    }
  }

  /** A string without `$` is its own escape. */
  lemma {:induction false} EscapeNoDollar(s: string)
    requires '$' !in s
    ensures Escape(s) == s
  {
    if |s| > 0 {
      EscapeNoDollar(s[1..]);
      assert [s[0]] + s[1..] == s;
    }
  }

  /** Unescaping undoes escaping, for every string. */
  lemma {:induction false} UnescapeEscape(s: string)
    ensures Unescape(Escape(s)) == s
  {
    if |s| > 0 {
      var rest := Escape(s[1..]);
      UnescapeEscape(s[1..]);
      if s[0] == '$' {
        assert Escape(s) == "\\$" + rest;
        assert ("\\$" + rest)[2..] == rest;
      } else {
        assert Escape(s) == [s[0]] + rest;
        assert ([s[0]] + rest)[1..] == rest;
        assert |rest| > 0 ==> rest[0] != '$';
      }
      assert [s[0]] + s[1..] == s;
    }
  }

  /** Without a backslash there is nothing to unescape. */
  lemma {:induction false} UnescapeNoBackslash(s: string)
    requires '\\' !in s
    ensures Unescape(s) == s
  {
    if |s| > 0 {
      UnescapeNoBackslash(s[1..]);
      assert [s[0]] + s[1..] == s;
    }
  }
}

=== FILE: http.dfy ===
/** The outcome of a route handler as its caller sees it. */
module Http {

  /** A 200 response carrying a JSON body, or an error status with a message. */
  datatype Response<+T> = Ok(body: T) | Fail(status: int, message: string)
  {
    /** The HTTP status code. */
    function Status(): int
    {
      if Ok? then 200 else status
    }
  }
}

=== FILE: js_number.dfy ===
/** The JavaScript number operations the routes and components rely on, over
    unbounded integers: `parseInt` without a radix, `String(n)` for an integer,
    and the truncating remainder operator `%`. */
module JsNumber {
  import Text

  /** What `parseInt` returns: an integer value or NaN. */
  datatype Parsed = Int(n: int) | NaN

  /** Digit value of `c` in bases up to 36, or -1 when `c` is no digit at all. */
  function DigitValue(c: char): int
  {
    if '0' <= c <= '9' then c as int - '0' as int
    else if 'a' <= c <= 'z' then c as int - 'a' as int + 10
    else if 'A' <= c <= 'Z' then c as int - 'A' as int + 10
    else -1
  }

  predicate IsDigit(c: char, radix: nat)
  {
    0 <= DigitValue(c) < radix
  }

  /** The longest prefix of `s` made of digits of `radix`. */
  function LeadingDigits(s: string, radix: nat): (r: string)
    ensures |r| <= |s| && r == s[..|r|]
    ensures forall i :: 0 <= i < |r| ==> IsDigit(r[i], radix)
    ensures |r| < |s| ==> !IsDigit(s[|r|], radix)
  {
    if |s| > 0 && IsDigit(s[0], radix) then
      var rest := LeadingDigits(s[1..], radix);
      assert s[1..][..|rest|] == s[1..|rest| + 1];
      [s[0]] + rest
    else ""
  }

  /** The value of a digit string read most significant digit first. */
  function DigitsValue(d: string, radix: nat): nat
    requires forall i :: 0 <= i < |d| ==> IsDigit(d[i], radix)
  {
    if |d| == 0 then 0
    else
      var init, last := d[..|d| - 1], d[|d| - 1];
      assert forall i :: 0 <= i < |init| ==> init[i] == d[i];
      assert IsDigit(last, radix);
      var high := DigitsValue(init, radix);
      NextDigitNonNegative(high, radix, DigitValue(last));
      high * radix + DigitValue(last)
  }

  lemma NextDigitNonNegative(high: nat, radix: nat, digit: nat)
    ensures high * radix + digit >= 0
  {
  }

  /** The unsigned part of `parseInt`: base 16 after a `0x`/`0X` prefix,
      base 10 otherwise, then the longest run of digits; no digits at all
      gives NaN. */
  function ParseMagnitude(u: string): (r: Parsed)
    ensures r.Int? ==> r.n >= 0
    ensures |u| == 0 || !IsDigit(u[0], 10) ==> r == NaN
  {
    var hex := |u| >= 2 && u[0] == '0' && (u[1] == 'x' || u[1] == 'X');
    var radix := if hex then 16 else 10;
    var body := if hex then u[2..] else u;
    var digits := LeadingDigits(body, radix);
    if |digits| == 0 then NaN else Int(DigitsValue(digits, radix))
  }

  /** `parseInt(s)` without a radix: skip leading whitespace, read an optional
      sign, then the magnitude. A string whose first non-blank character is
      neither a sign nor a digit is NaN, and only a `-` sign gives a negative
      number. */
  function ParseInt(s: string): (r: Parsed)
    ensures var t := Text.TrimStart(s, Text.IsSpace);
      |t| == 0 || (t[0] != '-' && t[0] != '+' && !IsDigit(t[0], 10)) ==> r == NaN
    ensures r.Int? && r.n < 0 ==> Text.TrimStart(s, Text.IsSpace)[0] == '-'
  {
    var t := Text.TrimStart(s, Text.IsSpace);
    var signed := |t| > 0 && (t[0] == '-' || t[0] == '+');
    var magnitude := ParseMagnitude(if signed then t[1..] else t);
    if magnitude.NaN? then NaN
    else if signed && t[0] == '-' then Int(-magnitude.n)
    else magnitude
  }

  /** The decimal digits of `m`, without leading zeros. */
  function Decimal(m: nat): (r: string)
    ensures |r| >= 1
    ensures forall i :: 0 <= i < |r| ==> IsDigit(r[i], 10)
  {
    var last := ['0' + (m % 10) as char];
    if m < 10 then last else Decimal(m / 10) + last
  }

  /** `String(n)` for an integer `n`: a `-` exactly for negative numbers,
      then decimal digits. */
  function IntToString(n: int): (r: string)
    ensures |r| >= 1 && (r[0] == '-' <==> n < 0)
    ensures forall i :: (if n < 0 then 1 else 0) <= i < |r| ==> IsDigit(r[i], 10)
  {
    if n < 0 then "-" + Decimal(-n) else Decimal(n)
  }

  /** Reading the decimal digits of `m` gives `m` back. */
  lemma {:induction false} DecimalValue(m: nat)
    ensures DigitsValue(Decimal(m), 10) == m
  {
    var d := Decimal(m);
    if m >= 10 {
      DecimalValue(m / 10);
      assert d[..|d| - 1] == Decimal(m / 10);
    }
  }

  /** `parseInt(String(n))` is `n` for every integer `n`: an id sent as a form
      field comes back as the same number. */
  lemma ParseIntToString(n: int)
    ensures ParseInt(IntToString(n)) == Int(n)
  {
    var s := IntToString(n);
    var m: nat := if n < 0 then -n else n;
    var d := Decimal(m);
    assert !Text.IsSpace(s[0]);
    Text.TrimStartKeeps(s, Text.IsSpace);
    assert (if n < 0 then s[1..] else s) == d;
    assert (s[0] == '-' || s[0] == '+') <==> n < 0 by {
      assert IsDigit(d[0], 10);
    }
    ParseMagnitudeDecimal(m);
  }

  /** The decimal digits of `m` read back as `m`: they never look like a `0x` prefix. */
  lemma ParseMagnitudeDecimal(m: nat)
    ensures ParseMagnitude(Decimal(m)) == Int(m)
  {
    var d := Decimal(m);
    DecimalValue(m);
    assert !(|d| >= 2 && (d[1] == 'x' || d[1] == 'X')) by {
      if |d| >= 2 {
        assert IsDigit(d[1], 10);
      }
    }
    LeadingDigitsAll(d, 10);
  }

  /** A string of digits is its own longest digit prefix. */
  lemma {:induction false} LeadingDigitsAll(d: string, radix: nat)
    requires forall i :: 0 <= i < |d| ==> IsDigit(d[i], radix)
    ensures LeadingDigits(d, radix) == d
  {
    if |d| > 0 {
      LeadingDigitsAll(d[1..], radix);
      assert [d[0]] + d[1..] == d;
    }
  }

  /** JavaScript `a % n`: the remainder truncated toward zero, so its sign follows
      `a`, and `a` is the quotient truncated toward zero times `|n|` plus it. */
  function Rem(a: int, n: int): (r: int)
    requires n != 0
    ensures a >= 0 ==> 0 <= r < if n > 0 then n else -n
    ensures a < 0 ==> -(if n > 0 then n else -n) < r <= 0
    ensures
      var m := if n > 0 then n else -n;
      var q := if a >= 0 then a / m else -((-a) / m);
      a == q * m + r
  {
    var m := if n > 0 then n else -n;
    if a >= 0 then a % m else -((-a) % m)
  }
}

=== FILE: loading_screen.dfy ===
/** The loading overlay: a progress counter advanced by a timer, and the
    overlay that fades out once the counter reaches 100. */
module LoadingScreen {
  /** The counter's initial value. */
  const Start: int := 0

  const Done: int := 100

  /** One timer tick: below 100 add one, otherwise settle at 100. */
  function Step(p: int): (r: int)
    ensures p < Done ==> r > p
    ensures r <= Done
  {
    if p >= Done then Done else p + 1
  }

  /** The counter after `k` ticks from the start. */
  function After(k: nat): int
  {
    if k == 0 then Start else Step(After(k - 1))
  }

  /** After `k` ticks the counter reads `min(k, 100)`. */
  lemma {:induction false} AfterIsMin(k: nat)
    ensures After(k) == if k <= Done then k else Done
  {
    if k > 0 {
      AfterIsMin(k - 1);
    }
  }

  /** The counter stays within [0, 100] and never goes back. */
  lemma InRangeAndRising(j: nat, k: nat)
    requires j <= k
    ensures 0 <= After(k) <= Done
    ensures After(j) <= After(k)
  {
    AfterIsMin(j);
    AfterIsMin(k);
  }

  /** Exactly 100 ticks reach 100, fewer do not, and 100 stays put. */
  lemma ReachesDone(k: nat)
    ensures After(k) == Done <==> k >= Done
    ensures Step(Done) == Done
  {
    AfterIsMin(k);
  }

  datatype Overlay = Overlay(opacity: int, interactive: bool)

  /** The overlay's animated style for a progress value. */
  function OverlayFor(p: int): (r: Overlay)
    ensures r.opacity == 0 <==> p == Done
    ensures !r.interactive <==> p == Done
  {
    if p == Done then Overlay(0, false) else Overlay(1, true)
  }

  /** The overlay is gone exactly once 100 ticks have passed. */
  lemma OverlayGoneAfter(k: nat)
    ensures OverlayFor(After(k)) == Overlay(0, false) <==> k >= Done
  {
    ReachesDone(k);
  }
}

=== FILE: login.dfy ===
/** The admin login route: it cleans the configured bcrypt hash, checks its
    shape, asks bcrypt to compare the password against it and, on a match, sets
    the session cookie the admin gate looks for. */
module Login {
  import opened Common
  import opened Text
  import opened HashEscape

  /** The request body: `Unparsable` when reading it throws, which happens
      when it is not JSON (`request.json()` throws) or is JSON `null` (only
      `null` makes the destructuring throw); otherwise any other JSON value,
      whose `password` is missing unless it is an object holding one. */
  datatype LoginRequest = Unparsable | Credentials(password: Option<string>)

  /** `bcryptjs.compare`: a match, no match, or an exception. */
  datatype CompareOutcome = Match | NoMatch | CompareError

  datatype Cookie = Cookie(
    name: string, value: string, httpOnly: bool, secure: bool,
    sameSite: string, path: string, maxAge: int)

  datatype LoginReply = LoginReply(status: int, message: string, cookie: Option<Cookie>)

  /** One day, in seconds. */
  const SessionSeconds: int := 60 * 60 * 24

  /** The cookie a successful login sets; `secure` only in production. */
  function SessionCookie(production: bool): Cookie
  {
    Cookie("admin_token", "authenticated", true, production, "lax", "/", SessionSeconds)
  }

  /** Trim, then turn every `\$` back into `$`. */
  function CleanHash(raw: string): (r: string)
    ensures |r| <= |raw|
    ensures Trimmed(raw) && '\\' !in raw ==> r == raw
  {
    var t := Trim(raw);
    assert Trimmed(raw) && '\\' !in raw ==> Unescape(t) == raw by {
      if Trimmed(raw) && '\\' !in raw {
        UnescapeNoBackslash(raw);
      }
    }
    Unescape(t)
  }

  predicate IsHashChar(c: char)
  {
    ('A' <= c <= 'Z') || ('a' <= c <= 'z') || ('0' <= c <= '9') || c == '.' || c == '/'
  }

  /** `/^\$2[ayb]\$[0-9]{2}\$[A-Za-z0-9./]{53}$/`: `$2a$`, `$2b$` or `$2y$`, two
      cost digits, `$`, then 53 salt-and-hash characters. */
  predicate IsBcryptFormat(h: string)
    ensures IsBcryptFormat(h) ==> |h| == 60 && '\\' !in h && Trimmed(h)
  {
    && |h| == 60
    && h[0] == '$' && h[1] == '2' && (h[2] == 'a' || h[2] == 'y' || h[2] == 'b') && h[3] == '$'
    && '0' <= h[4] <= '9' && '0' <= h[5] <= '9' && h[6] == '$'
    && forall i :: 7 <= i < 60 ==> IsHashChar(h[i])
  }

  /** POST. `configured` is the `ADMIN_PASSWORD_HASH` environment value,
      `compare` the bcrypt oracle. An unreadable body, a missing or empty hash
      and a malformed hash are 500 before any comparison; a failed comparison is
      401, a throwing one 500; only a match sets the cookie. */
  function Login(request: LoginRequest, configured: Option<string>,
                 compare: (Option<string>, string) -> CompareOutcome, production: bool): (r: LoginReply)
    ensures request.Unparsable? ==> r == LoginReply(500, "An error occurred during login", None)
    ensures request.Credentials? && (configured.None? || configured == Some("")) ==>
      r == LoginReply(500, "Server configuration error", None)
    ensures r.cookie.Some? <==> r.status == 200
    ensures r.status == 200 <==>
      && request.Credentials? && configured.Some?
      && IsBcryptFormat(CleanHash(configured.value))
      && compare(request.password, CleanHash(configured.value)) == Match
    ensures r.cookie.Some? ==> r.cookie.value == SessionCookie(production)
    ensures r.status == 401 <==>
      && request.Credentials? && configured.Some?
      && IsBcryptFormat(CleanHash(configured.value))
      && compare(request.password, CleanHash(configured.value)) == NoMatch
    ensures r.status == 200 || r.status == 401 || r.status == 500
  {
    match request
    case Unparsable => LoginReply(500, "An error occurred during login", None)
    case Credentials(password) =>
      if configured.None? || configured.value == "" then
        LoginReply(500, "Server configuration error", None)
      else
        var hash := CleanHash(configured.value);
        if !IsBcryptFormat(hash) then
          LoginReply(500, "Server configuration error - invalid hash format", None)
        else
          match compare(password, hash)
          case NoMatch => LoginReply(401, "Invalid password", None)
          case Match => LoginReply(200, "Logged in successfully", Some(SessionCookie(production)))
          case CompareError => LoginReply(500, "Error validating password", None)
  }

  /** A malformed or missing hash is answered before bcrypt is consulted: the
      reply does not depend on the comparison at all. */
  lemma RejectedHashSkipsCompare(request: LoginRequest, configured: Option<string>,
                                 c1: (Option<string>, string) -> CompareOutcome,
                                 c2: (Option<string>, string) -> CompareOutcome, production: bool)
    requires configured.None? || configured == Some("") || !IsBcryptFormat(CleanHash(configured.value))
    ensures Login(request, configured, c1, production) == Login(request, configured, c2, production)
    ensures Login(request, configured, c1, production).status == 500
  {
  }

  /** What the format check guarantees: 60 characters, one of the three
      prefixes, and no backslash, so cleaning an accepted hash again changes
      nothing. */
  lemma AcceptedHashShape(h: string)
    requires IsBcryptFormat(h)
    ensures |h| == 60
    ensures h[..4] == "$2a$" || h[..4] == "$2b$" || h[..4] == "$2y$"
    ensures '\\' !in h
    ensures CleanHash(h) == h
  {
    assert '\\' !in h by {
      forall i | 0 <= i < |h|
        ensures h[i] != '\\'
      {
        if i >= 7 {
          assert IsHashChar(h[i]);
        }
      }
    }
    assert Trimmed(h) by {
      assert IsHashChar(h[59]);
    }
    UnescapeNoBackslash(h);
  }

  /** The value the password script prints for the environment file is
      accepted: cleaning the escaped form of a well-formed hash gives the hash. */
  lemma {:induction false} EscapedHashAccepted(h: string)
    requires IsBcryptFormat(h)
    ensures CleanHash(Escape(h)) == h
    ensures IsBcryptFormat(CleanHash(Escape(h)))
  {
    var e := Escape(h);
    assert e[0] == '\\' by {
      EscapeAppend(h[..1], h[1..]);
      assert h[..1] + h[1..] == h;
    }
    assert e[|e| - 1] == h[59];
    assert IsHashChar(h[59]);
    assert Trimmed(e);
    UnescapeEscape(h);
  }
}

=== FILE: media.dfy ===
/** The media listing route: one item per file of the uploads directory, with
    an id and a name cut from the file name at its first hyphen. */
module Media {
  import opened Common
  import opened Text
  import opened Http
  import opened Upload

  /** What `stat` reports for a file. */
  datatype FileStat = FileStat(size: nat, mtime: string)

  /** A directory entry and its `stat`, `None` when that call fails. */
  datatype DirEntry = DirEntry(filename: string, stat: Option<FileStat>)

  datatype MediaItem = MediaItem(id: string, url: string, name: string, size: nat, uploadedAt: string)

  /** `filename.split('-')[0]`. */
  function ItemId(filename: string): (r: string)
    ensures '-' !in r
  {
    Split(filename, '-')[0]
  }

  /** `filename.split('-').slice(1).join('-')`. */
  function ItemName(filename: string): (r: string)
    ensures '-' !in filename ==> r == ""
  {
    CountAbsent(filename, '-');
    Join(Split(filename, '-')[1..], "-")
  }

  /** The id is the text before the first hyphen and the name the text after
      it; without a hyphen the id is the whole name and the name is empty. */
  lemma IdAndName(filename: string)
    ensures '-' in filename ==> ItemId(filename) + "-" + ItemName(filename) == filename
    ensures '-' !in filename ==> ItemId(filename) == filename && ItemName(filename) == ""
  {
    var parts := Split(filename, '-');
    JoinSplit(filename, '-');
    CountAbsent(filename, '-');
    if '-' !in filename {
      SplitNoSeparator(filename, '-');
    } else {
      assert |parts| >= 2;
      assert Join(parts, "-") == parts[0] + "-" + Join(parts[1..], "-");
    }
  }

  /** The item listed for one directory entry. */
  function Describe(e: DirEntry): (r: MediaItem)
    requires e.stat.Some?
    ensures r.url == PublicUrl(e.filename)
    ensures r.size == e.stat.value.size && r.uploadedAt == e.stat.value.mtime
  {
    MediaItem(ItemId(e.filename), PublicUrl(e.filename), ItemName(e.filename), e.stat.value.size, e.stat.value.mtime)
  }

  /** GET. `listing` is `None` when the directory cannot be read; a failing
      `stat` rejects the whole listing too. Otherwise one item per entry, in
      directory order, each with the url the upload route returned for it. */
  function List(listing: Option<seq<DirEntry>>): (r: Response<seq<MediaItem>>)
    ensures listing.None? ==> r == Fail(500, "Error reading media directory")
    ensures r.Ok? <==> listing.Some? && forall i :: 0 <= i < |listing.value| ==> listing.value[i].stat.Some?
    ensures r.Fail? ==> r == Fail(500, "Error reading media directory")
    ensures r.Ok? ==>
      && |r.body| == |listing.value|
      && forall i :: 0 <= i < |r.body| ==>
           && r.body[i].url == PublicUrl(listing.value[i].filename)
           && r.body[i].id == ItemId(listing.value[i].filename)
           && r.body[i].name == ItemName(listing.value[i].filename)
           && r.body[i].size == listing.value[i].stat.value.size
           && r.body[i].uploadedAt == listing.value[i].stat.value.mtime
           && r.body[i] == Describe(listing.value[i])
  {
    if listing.None? then Fail(500, "Error reading media directory")
    else
      var entries := listing.value;
      if exists i :: 0 <= i < |entries| && entries[i].stat.None? then Fail(500, "Error reading media directory")
      else Ok(seq(|entries|, i requires 0 <= i < |entries| => Describe(entries[i])))
  }

  /** As written, an uploaded file is listed with only the first group of its
      UUID as id, and the other four groups joined in front of its name. */
  lemma UploadedIdIsFirstGroup(uuid: string, original: string)
    requires IsUuid(uuid)
    ensures
      var stored := StoredName(uuid, original);
      && ItemId(stored) == uuid[..8]
      && ItemId(stored) != uuid
      && ItemName(stored) == uuid[9..] + "-" + Sanitize(original)
  {
    var stored := StoredName(uuid, original);
    var tail := uuid[9..] + "-" + Sanitize(original);
    assert uuid[8] == '-';
    assert '-' !in uuid[..8] by {
      forall i | 0 <= i < 8
        ensures uuid[..8][i] != '-'
      {
        assert IsLowerHex(uuid[i]);
      }
    }
    assert stored == uuid[..8] + ['-'] + tail;
    SplitFirst(uuid[..8], '-', tail);
    assert Split(stored, '-')[1..] == Split(tail, '-');
    JoinSplit(tail, '-');
  }

  /** A name in the upload route's format: a UUID, a hyphen, then the rest. */
  predicate IsUploadName(filename: string)
  {
    |filename| >= 37 && IsUuid(filename[..36]) && filename[36] == '-'
  }

  /** Corrected id: the whole UUID for names in the upload format; other names
      are cut at the first hyphen as before. */
  function ItemIdFixed(filename: string): string
  {
    if IsUploadName(filename) then filename[..36] else ItemId(filename)
  }

  /** Corrected name: everything after the UUID and its hyphen. */
  function ItemNameFixed(filename: string): string
  {
    if IsUploadName(filename) then filename[37..] else ItemName(filename)
  }

  /** With the correction, listing gives back exactly what the upload combined:
      the UUID and the sanitised original name. */
  lemma UploadedIdFixed(uuid: string, original: string)
    requires IsUuid(uuid)
    ensures
      var stored := StoredName(uuid, original);
      ItemIdFixed(stored) == uuid && ItemNameFixed(stored) == Sanitize(original)
  {
    var stored := StoredName(uuid, original);
    assert stored[..36] == uuid;
  }

  /** The corrected cut still splits at a hyphen: id, hyphen and name rebuild
      the file name whenever it holds a hyphen. */
  lemma IdAndNameFixed(filename: string)
    requires '-' in filename
    ensures ItemIdFixed(filename) + "-" + ItemNameFixed(filename) == filename
  {
    if IsUploadName(filename) {
      assert filename[..36] + "-" + filename[37..] == filename;
    } else {
      IdAndName(filename);
    }
  }
}

=== FILE: media_library.dfy ===
/** The media library screen: the selection set, the search filter and the
    size ordering of the listed items, and the reset of the selection after a
    bulk delete. */
module MediaLibrary {
  import opened Common
  import opened Media

  /** `toggleSelection`: add `id` when absent, remove it when present. */
  function ToggleSelection(selected: set<string>, id: string): (r: set<string>)
    ensures id in r <==> id !in selected
    ensures forall x :: x != id ==> (x in r <==> x in selected)
  {
    if id in selected then selected - {id} else selected + {id}
  }

  /** Toggling the same id twice restores the selection. */
  lemma ToggleTwice(selected: set<string>, id: string)
    ensures ToggleSelection(ToggleSelection(selected, id), id) == selected
  {
  }

  /** `handleDelete` on the selection: once the user confirmed and every delete
      request settled (whatever its status), the selection is emptied; if one
      request is rejected, or the user cancels, it is kept. */
  function AfterDelete(selected: set<string>, confirmed: bool, allSettled: bool): (r: set<string>)
    ensures confirmed && allSettled ==> r == {}
    ensures !(confirmed && allSettled) ==> r == selected
  {
    if confirmed && allSettled then {} else selected
  }

  /** `toLowerCase` on ASCII letters. */
  function LowerChar(c: char): (r: char)
    ensures 'A' <= c <= 'Z' ==> 'a' <= r <= 'z' && r as int == c as int + 32
    ensures !('A' <= c <= 'Z') ==> r == c
  {
    if 'A' <= c <= 'Z' then (c as int + 32) as char else c
  }

  function Lower(s: string): (r: string)
    ensures |r| == |s|
    ensures forall i :: 0 <= i < |s| ==> r[i] == LowerChar(s[i])
  {
    seq(|s|, i requires 0 <= i < |s| => LowerChar(s[i]))
  }

  /** The item's name contains the query, ignoring ASCII case. */
  predicate MatchesQuery(item: MediaItem, query: string)
  {
    Contains(Lower(item.name), Lower(query))
  }

  /** The search filter: the items whose name contains the query, in order. */
  function FilterItems(items: seq<MediaItem>, query: string): (r: seq<MediaItem>)
    ensures |r| <= |items|
    ensures forall i :: 0 <= i < |r| ==> r[i] in items && MatchesQuery(r[i], query)
    ensures forall i :: 0 <= i < |items| && MatchesQuery(items[i], query) ==> items[i] in r
  {
    Keep(items, (item: MediaItem) => MatchesQuery(item, query))
  }

  /** An empty query keeps every item. */
  lemma EmptyQueryKeepsAll(items: seq<MediaItem>)
    ensures FilterItems(items, "") == items
  {
    forall i | 0 <= i < |items|
      ensures MatchesQuery(items[i], "")
    {
      ContainsEmpty(Lower(items[i].name));
    }
    KeepAll(items, (item: MediaItem) => MatchesQuery(item, ""));
  }

  /** Largest first. */
  predicate SizeDescending(items: seq<MediaItem>)
  {
    forall i, j :: 0 <= i < j < |items| ==> items[i].size >= items[j].size
  }

  /** No item is larger than `bound`. */
  predicate AllAtMost(items: seq<MediaItem>, bound: int)
  {
    forall k :: 0 <= k < |items| ==> items[k].size <= bound
  }

  /** A bound on sizes carries over to any rearrangement. */
  lemma AtMostPermutation(a: seq<MediaItem>, b: seq<MediaItem>, bound: int)
    requires multiset(a) == multiset(b)
    requires AllAtMost(b, bound)
    ensures AllAtMost(a, bound)
  {
    forall k | 0 <= k < |a|
      ensures a[k].size <= bound
    {
      assert a[k] in multiset(b);
      var j :| 0 <= j < |b| && b[j] == a[k];
    }
  }

  /** Put `x` in front of the first item no larger than it: the insertion step
      of a stable sort by decreasing size. */
  function Insert(x: MediaItem, sorted: seq<MediaItem>): (r: seq<MediaItem>)
    requires SizeDescending(sorted)
    ensures SizeDescending(r)
    ensures multiset(r) == multiset(sorted) + multiset{x}
  {
    if |sorted| == 0 || sorted[0].size <= x.size then [x] + sorted
    else
      var head, tail := sorted[0], sorted[1..];
      assert SizeDescending(tail);
      var rest := Insert(x, tail);
      InsertStep(head, tail, x, rest);
      assert sorted == [head] + tail;
      [head] + rest
  }

  /** An item larger than `x` and than everything in `tail` stays in front
      of any ordering of `tail` with `x`. */
  lemma InsertStep(head: MediaItem, tail: seq<MediaItem>, x: MediaItem, rest: seq<MediaItem>)
    requires AllAtMost(tail, head.size) && x.size < head.size
    requires SizeDescending(rest) && multiset(rest) == multiset(tail) + multiset{x}
    ensures SizeDescending([head] + rest)
  {
    assert AllAtMost(tail + [x], head.size);
    assert multiset(tail + [x]) == multiset(tail) + multiset{x};
    AtMostPermutation(rest, tail + [x], head.size);
  }

  /** The `size` ordering: a permutation of the items, largest first. */
  function SortBySize(items: seq<MediaItem>): (r: seq<MediaItem>)
    ensures SizeDescending(r)
    ensures multiset(r) == multiset(items)
  {
    if |items| == 0 then []
    else
      assert items == [items[0]] + items[1..];
      Insert(items[0], SortBySize(items[1..]))
  }

  /** What the grid shows under the size ordering: the matching items, every
      one of them and nothing else, largest first. */
  function VisibleBySize(items: seq<MediaItem>, query: string): (r: seq<MediaItem>)
    ensures SizeDescending(r)
    ensures multiset(r) == multiset(FilterItems(items, query))
    ensures forall i :: 0 <= i < |r| ==> r[i] in items && MatchesQuery(r[i], query)
  {
    var kept := FilterItems(items, query);
    var r := SortBySize(kept);
    assert forall i :: 0 <= i < |r| ==> r[i] in multiset(kept);
    r
  }
}

=== FILE: project_store.dfy ===
/** The admin projects route: the projects file seen as a sequence of records,
    the decoding of a submitted form into a record, and the GET / POST / PUT
    handlers as functions from (file, request, environment) to (file, response). */
module ProjectStore {
  import opened Common
  import opened Text
  import opened JsNumber
  import opened Http

  /** One project record. The four free-text fields hold `null` (here `None`)
      when the form did not carry them, which the route stores as it is. */
  datatype Project = Project(
    id: int,
    title: Option<string>,
    description: Option<string>,
    longDescription: Option<string>,
    features: seq<string>,
    images: seq<string>,
    technologies: seq<string>,
    githubRepo: Option<string>,
    liveDemo: Option<string>,
    inProgress: bool)

  /** The text fields of a submitted form (the first value of each name). */
  type Form = map<string, string>

  /** `JSON.parse` applied to the `images` field: the array of strings it
      denotes, or `None` when it throws. */
  type ImagesParser = string -> Option<seq<string>>

  /** The projects file: a parsable array of records, or missing / unparsable. */
  datatype StoreFile = Stored(projects: seq<Project>) | Unreadable

  /** A handler's effect: the file afterwards and the response. */
  datatype Reply = Reply(file: StoreFile, response: Response<Project>)

  /** Reading the projects file; any read or parse failure yields no records. */
  function ReadProjects(file: StoreFile): (r: seq<Project>)
    ensures file.Unreadable? ==> r == []
  {
    match file
    case Stored(ps) => ps
    case Unreadable => []
  }

  /** `formData.get(key)`. */
  function Field(form: Form, key: string): Option<string>
  {
    if key in form then Some(form[key]) else None
  }

  predicate NonEmpty(s: string)
  {
    s != ""
  }

  /** `features.split('\n').filter(Boolean)`. */
  function DecodeFeatures(text: string): (r: seq<string>)
    ensures |r| <= Count(text, '\n') + 1
    ensures forall i :: 0 <= i < |r| ==> r[i] != "" && '\n' !in r[i] && r[i] in Split(text, '\n')
    ensures forall i :: 0 <= i < |Split(text, '\n')| && Split(text, '\n')[i] != "" ==> Split(text, '\n')[i] in r
  {
    Keep(Split(text, '\n'), NonEmpty)
  }

  /** `technologies.split(',').map(t => t.trim())`. */
  function DecodeTechnologies(text: string): (r: seq<string>)
    ensures |r| == Count(text, ',') + 1
    ensures forall i :: 0 <= i < |r| ==> Trimmed(r[i]) && ',' !in r[i]
    ensures forall i :: 0 <= i < |r| ==> r[i] == Trim(Split(text, ',')[i])
  {
    var pieces := Split(text, ',');
    TrimAll(pieces)
  }

  /** `JSON.parse(images || '[]')`: an absent or empty field is the empty array. */
  function DecodeImages(field: Option<string>, parse: ImagesParser): (r: Option<seq<string>>)
    ensures (field.None? || field == Some("")) ==> r == Some([])
    ensures field.Some? && field.value != "" ==> r == parse(field.value)
  {
    if field.None? || field.value == "" then Some([]) else parse(field.value)
  }

  /** `liveDemo || undefined`: the empty string counts as absent. */
  function DecodeLiveDemo(field: Option<string>): (r: Option<string>)
    ensures r.None? <==> field.None? || field == Some("")
    ensures r.Some? ==> r == field
  {
    if field.None? || field.value == "" then None else field
  }

  /** Everything a request decodes to except the id. */
  datatype Fields = Fields(
    title: Option<string>,
    description: Option<string>,
    longDescription: Option<string>,
    features: seq<string>,
    images: seq<string>,
    technologies: seq<string>,
    githubRepo: Option<string>,
    liveDemo: Option<string>,
    inProgress: bool)

  function WithId(f: Fields, id: int): Project
  {
    Project(id, f.title, f.description, f.longDescription, f.features, f.images,
            f.technologies, f.githubRepo, f.liveDemo, f.inProgress)
  }

  function FieldsOf(p: Project): Fields
  {
    Fields(p.title, p.description, p.longDescription, p.features, p.images,
           p.technologies, p.githubRepo, p.liveDemo, p.inProgress)
  }

  /** The record literal both POST and PUT build from the form. It throws (here
      `None`) when `features` or `technologies` is missing, since `null.split`
      fails, or when the `images` text is not valid JSON. */
  function Decode(form: Form, parse: ImagesParser): (r: Option<Fields>)
    ensures r.None? <==>
      "features" !in form || "technologies" !in form || DecodeImages(Field(form, "images"), parse).None?
    ensures r.Some? ==>
      var f := r.value;
      && f.title == Field(form, "title")
      && f.description == Field(form, "description")
      && f.longDescription == Field(form, "longDescription")
      && f.githubRepo == Field(form, "githubRepo")
      && f.features == DecodeFeatures(form["features"])
      && f.technologies == DecodeTechnologies(form["technologies"])
      && DecodeImages(Field(form, "images"), parse) == Some(f.images)
      && f.liveDemo == DecodeLiveDemo(Field(form, "liveDemo"))
      && (f.inProgress <==> "inProgress" in form && form["inProgress"] == "true")
  {
    if "features" !in form || "technologies" !in form then None
    else
      match DecodeImages(Field(form, "images"), parse)
      case None => None
      case Some(images) =>
        Some(Fields(
          Field(form, "title"),
          Field(form, "description"),
          Field(form, "longDescription"),
          DecodeFeatures(form["features"]),
          images,
          DecodeTechnologies(form["technologies"]),
          Field(form, "githubRepo"),
          DecodeLiveDemo(Field(form, "liveDemo")),
          Field(form, "inProgress") == Some("true")))
  }

  /** `parseInt(formData.get('id'))`; an absent field is `null`, read as "null". */
  function RequestId(form: Form): (r: Parsed)
    ensures "id" !in form ==> r == NaN
  {
    assert !JsNumber.IsDigit('n', 10);
    ParseInt(if "id" in form then form["id"] else "null")
  }

  /** A request without an `id` field names no record at all. */
  lemma MissingIdIsNaN(form: Form)
    requires "id" !in form
    ensures RequestId(form) == NaN
  {
    assert !JsNumber.IsDigit('n', 10);
  }

  /** `projects.findIndex(p => p.id === id)`: the first position holding `id`;
      NaN equals nothing. */
  function FindIndex(ps: seq<Project>, id: Parsed): (r: Option<nat>)
    ensures r.Some? ==> r.value < |ps| && id == Int(ps[r.value].id)
    ensures r.Some? ==> forall j :: 0 <= j < r.value ==> id != Int(ps[j].id)
    ensures r.None? <==> forall j :: 0 <= j < |ps| ==> id != Int(ps[j].id)
  {
    if |ps| == 0 then None
    else if id == Int(ps[0].id) then Some(0)
    else
      match FindIndex(ps[1..], id)
      case None => None
      case Some(k) => Some(k + 1)
  }

  /** GET: the stored records, or none when the file cannot be read; reading
      never fails, so the route always answers 200. */
  function List(file: StoreFile): (r: Response<seq<Project>>)
    ensures r.Ok?
    ensures file.Unreadable? ==> r.body == []
    ensures file.Stored? ==> r.body == file.projects
  {
    Ok(ReadProjects(file))
  }

  /** POST: decode the form, give the record the clock value as id, append it
      and write the whole list. `request` is `None` when the body is no form;
      `writeOk` says whether the write succeeded. */
  function Create(file: StoreFile, request: Option<Form>, now: int, parse: ImagesParser, writeOk: bool): (r: Reply)
    ensures r.response.Ok? <==> request.Some? && Decode(request.value, parse).Some? && writeOk
    ensures r.response.Fail? ==> r.response.status == 500 && r.file == file
    ensures r.response.Ok? ==>
      var p := r.response.body;
      && p.id == now
      && Decode(request.value, parse) == Some(FieldsOf(p))
      && r.file.Stored?
      && |r.file.projects| == |ReadProjects(file)| + 1
      && r.file.projects[..|ReadProjects(file)|] == ReadProjects(file)
      && r.file.projects[|ReadProjects(file)|] == p
  {
    var projects := ReadProjects(file);
    if request.None? then Reply(file, Fail(500, "Error creating project"))
    else
      match Decode(request.value, parse)
      case None => Reply(file, Fail(500, "Error creating project"))
      case Some(f) =>
        var p := WithId(f, now);
        if !writeOk then Reply(file, Fail(500, "Error creating project"))
        else
          var next := projects + [p];
          assert next[..|projects|] == projects;
          Reply(Stored(next), Ok(p))
  }

  /** PUT: decode the form, then look the parsed id up; replace the first record
      holding it and write, or answer 404 without writing. */
  function Update(file: StoreFile, request: Option<Form>, parse: ImagesParser, writeOk: bool): (r: Reply)
    ensures request.None? ==> r == Reply(file, Fail(500, "Error updating project"))
    ensures request.Some? && Decode(request.value, parse).None? ==>
      r == Reply(file, Fail(500, "Error updating project"))
    ensures request.Some? && Decode(request.value, parse).Some?
            && FindIndex(ReadProjects(file), RequestId(request.value)).None? ==>
      r == Reply(file, Fail(404, "Project not found"))
    ensures r.response.Ok? <==>
      && request.Some? && Decode(request.value, parse).Some?
      && FindIndex(ReadProjects(file), RequestId(request.value)).Some? && writeOk
    ensures r.response.Fail? ==> r.file == file
    ensures r.response.Ok? ==>
      var ps := ReadProjects(file);
      var k := FindIndex(ps, RequestId(request.value)).value;
      var p := r.response.body;
      && Int(p.id) == RequestId(request.value)
      && p.id == ps[k].id
      && Decode(request.value, parse) == Some(FieldsOf(p))
      && r.file == Stored(ps[k := p])
  {
    var projects := ReadProjects(file);
    if request.None? then Reply(file, Fail(500, "Error updating project"))
    else
      var form := request.value;
      match Decode(form, parse)
      case None => Reply(file, Fail(500, "Error updating project"))
      case Some(f) =>
        match FindIndex(projects, RequestId(form))
        case None => Reply(file, Fail(404, "Project not found"))
        case Some(k) =>
          var p := WithId(f, projects[k].id);
          if !writeOk then Reply(file, Fail(500, "Error updating project"))
          else Reply(Stored(projects[k := p]), Ok(p))
  }

  /** `after` is `ps` with position `k`, the first holding `p.id`, set to `p`. */
  ghost predicate ReplacedFirst(ps: seq<Project>, after: seq<Project>, p: Project, k: int)
  {
    && 0 <= k < |ps| && |after| == |ps|
    && after[k] == p && ps[k].id == p.id
    && (forall j :: 0 <= j < k ==> ps[j].id != p.id)
    && (forall j :: 0 <= j < |ps| && j != k ==> after[j] == ps[j])
  }

  /** A successful update touches exactly one position, the first holding the
      id: the length is kept and every other record is unchanged. */
  lemma UpdateFrame(file: StoreFile, form: Form, parse: ImagesParser)
    ensures var r := Update(file, Some(form), parse, true);
      r.response.Ok? ==>
        ReplacedFirst(ReadProjects(file), r.file.projects, r.response.body,
                      FindIndex(ReadProjects(file), RequestId(form)).value)
  {
    var r := Update(file, Some(form), parse, true);
    if r.response.Ok? {
      var ps := ReadProjects(file);
      var k := FindIndex(ps, RequestId(form)).value;
      assert r.file.projects == ps[k := r.response.body];
    }
  }

  /** A create over an unreadable file replaces whatever it held with a list of
      one record: the first-run fallback also discards a corrupt file. */
  lemma CreateOverUnreadable(form: Form, now: int, parse: ImagesParser)
    requires Decode(form, parse).Some?
    ensures Create(Unreadable, Some(form), now, parse, true).file
            == Stored([WithId(Decode(form, parse).value, now)])
  {
  }
}

=== FILE: projects_manager.dfy ===
/** The admin projects screen: its local copy of the records, kept in step
    with the server by filter, map and append, and the form it sends to the
    projects route, which encodes a record back into text fields. */
module ProjectsManager {
  import opened Common
  import opened Text
  import opened JsNumber
  import opened Http
  import opened ProjectStore
  import opened FormTransport
  import opened FormFields

  /** A file chosen in the image picker; only how many there are matters here. */
  datatype ImageFile = ImageFile(name: string, mimeType: string)

  /** The component's state: the listed records, whether the modal is open,
      the record being edited (none while adding) and the chosen image files. */
  datatype EditorState = EditorState(
    projects: seq<Project>,
    modalOpen: bool,
    editing: Option<Project>,
    newImages: seq<ImageFile>)

  const Initial: EditorState := EditorState([], false, None, [])

  /** Opening the modal to add a record. */
  function StartAdd(s: EditorState): (r: EditorState)
    ensures r.modalOpen && r.editing.None?
    ensures r.projects == s.projects && r.newImages == s.newImages
  {
    s.(editing := None, modalOpen := true)
  }

  /** Opening the modal to edit `p`. */
  function StartEdit(s: EditorState, p: Project): (r: EditorState)
    ensures r.modalOpen && r.editing == Some(p)
    ensures r.projects == s.projects && r.newImages == s.newImages
  {
    s.(editing := Some(p), modalOpen := true)
  }

  /** The image picker's change handler; `files` is `None` when the input
      reports no file list. */
  function ChooseImages(s: EditorState, files: Option<seq<ImageFile>>): (r: EditorState)
    ensures files.Some? ==> r.newImages == files.value
    ensures files.None? ==> r == s
    ensures r.projects == s.projects && r.editing == s.editing && r.modalOpen == s.modalOpen
  {
    if files.Some? then s.(newImages := files.value) else s
  }

  /** The local list without the records holding `id`, in their old order. */
  function WithoutId(ps: seq<Project>, id: int): (r: seq<Project>)
    ensures forall i :: 0 <= i < |r| ==> r[i].id != id && r[i] in ps
    ensures forall i :: 0 <= i < |ps| && ps[i].id != id ==> ps[i] in r
  {
    Keep(ps, (p: Project) => p.id != id)
  }

  /** Removal works piece by piece, so the kept records stay in order. */
  lemma WithoutIdAppend(a: seq<Project>, b: seq<Project>, id: int)
    ensures WithoutId(a + b, id) == WithoutId(a, id) + WithoutId(b, id)
  {
    KeepAppend(a, b, (p: Project) => p.id != id);
  }

  /** Deleting a record: once the user confirmed and the request settled with
      any status, every local record holding `id` is dropped and the others
      keep their order and multiplicity (removal works on every split of the
      list piece by piece); a rejected request or a cancelled confirmation
      changes nothing. */
  function DeleteProject(s: EditorState, id: int, confirmed: bool, fetchResolved: bool): (r: EditorState)
    ensures !(confirmed && fetchResolved) ==> r == s
    ensures r.modalOpen == s.modalOpen && r.editing == s.editing && r.newImages == s.newImages
    ensures confirmed && fetchResolved ==>
      && (forall i :: 0 <= i < |r.projects| ==> r.projects[i].id != id && r.projects[i] in s.projects)
      && (forall i :: 0 <= i < |s.projects| && s.projects[i].id != id ==> s.projects[i] in r.projects)
    ensures confirmed && fetchResolved ==>
      forall a, b :: s.projects == a + b ==> r.projects == WithoutId(a, id) + WithoutId(b, id)
  {
    if confirmed && fetchResolved then
      forall a, b | s.projects == a + b
        ensures WithoutId(s.projects, id) == WithoutId(a, id) + WithoutId(b, id)
      {
        WithoutIdAppend(a, b, id);
      }
      s.(projects := WithoutId(s.projects, id))
    else s
  }

  /** Deleting an id no local record holds leaves the list as it was. */
  lemma DeleteAbsentId(s: EditorState, id: int)
    requires forall i :: 0 <= i < |s.projects| ==> s.projects[i].id != id
    ensures DeleteProject(s, id, true, true) == s
  {
    KeepAll(s.projects, (p: Project) => p.id != id);
  }

  /** The text a form input shows for an optional field (`undefined` shows as empty). */
  function InputText(v: Option<string>): string
  {
    if v.Some? then v.value else ""
  }

  /** The values of the seven named form inputs. */
  datatype FormInputs = FormInputs(
    title: string,
    description: string,
    longDescription: string,
    features: string,
    technologies: string,
    githubRepo: string,
    liveDemo: string)

  /** The inputs as the modal first shows them: empty when adding; when editing,
      the record's fields with features one per line and technologies joined by ", ". */
  function DefaultInputs(editing: Option<Project>): (r: FormInputs)
    ensures editing.None? ==> r == FormInputs("", "", "", "", "", "", "")
    ensures editing.Some? && |editing.value.features| >= 1
            && (forall i :: 0 <= i < |editing.value.features| ==> '\n' !in editing.value.features[i])
            ==> Split(r.features, '\n') == editing.value.features
  {
    match editing
    case None => FormInputs("", "", "", "", "", "", "")
    case Some(p) =>
      assert |p.features| >= 1 && (forall i :: 0 <= i < |p.features| ==> '\n' !in p.features[i])
             ==> Split(Join(p.features, "\n"), '\n') == p.features by {
        if |p.features| >= 1 && (forall i :: 0 <= i < |p.features| ==> '\n' !in p.features[i]) {
          SplitJoin(p.features, '\n');
        }
      }
      FormInputs(InputText(p.title), InputText(p.description), InputText(p.longDescription),
                 Join(p.features, "\n"), Join(p.technologies, ", "),
                 InputText(p.githubRepo), InputText(p.liveDemo))
  }

  /** `JSON.stringify` of the uploaded image urls. */
  type ImagesEncoder = seq<string> -> string

  /** `new FormData(form)`: every named input, and nothing else (the file
      picker has no name). */
  function InputsForm(inputs: FormInputs): (r: Form)
    ensures CarriesInputs(r, inputs)
    ensures r.Keys == {"title", "description", "longDescription", "features", "technologies", "githubRepo", "liveDemo"}
    ensures "images" !in r && "id" !in r && "inProgress" !in r
  {
    map["title" := inputs.title, "description" := inputs.description,
        "longDescription" := inputs.longDescription, "features" := inputs.features,
        "technologies" := inputs.technologies, "githubRepo" := inputs.githubRepo,
        "liveDemo" := inputs.liveDemo]
  }

  /** `form` holds each of the seven named inputs with its value. */
  predicate CarriesInputs(form: Form, inputs: FormInputs)
  {
    && "title" in form && form["title"] == inputs.title
    && "description" in form && form["description"] == inputs.description
    && "longDescription" in form && form["longDescription"] == inputs.longDescription
    && "features" in form && form["features"] == inputs.features
    && "technologies" in form && form["technologies"] == inputs.technologies
    && "githubRepo" in form && form["githubRepo"] == inputs.githubRepo
    && "liveDemo" in form && form["liveDemo"] == inputs.liveDemo
  }

  /** The values as the route receives them: the four single-line text inputs
      (title, description, technologies, repository) lose their line breaks,
      the url input is also trimmed of ASCII white space, and both textareas
      (long description, features) have every line break sent as CR LF. */
  function Sent(inputs: FormInputs): (r: FormInputs)
    ensures NoLineBreak(r.title) && NoLineBreak(r.description)
    ensures NoLineBreak(r.technologies) && NoLineBreak(r.githubRepo)
    ensures NoLineBreak(r.liveDemo) && TrimmedBy(r.liveDemo, IsAsciiSpace)
    ensures CrlfNormal(r.longDescription) && CrlfNormal(r.features)
  {
    FormInputs(StripNewlines(inputs.title), StripNewlines(inputs.description),
               Crlf(inputs.longDescription), Crlf(inputs.features),
               StripNewlines(inputs.technologies), StripNewlines(inputs.githubRepo),
               UrlValue(inputs.liveDemo))
  }

  /** Appending `images` keeps the seven inputs and adds no `id` or `inProgress`. */
  lemma AddImages(form: Form, inputs: FormInputs, images: string)
    requires CarriesInputs(form, inputs) && "id" !in form && "inProgress" !in form
    ensures CarriesInputs(form["images" := images], inputs)
    ensures "id" !in form["images" := images] && "inProgress" !in form["images" := images]
  {
  }

  datatype Method = Post | Put

  datatype ProjectRequest = ProjectRequest(verb: Method, form: Form)

  /** The request `handleSubmit` sends once the image uploads resolved to
      `urls`, as the route receives it: PUT while editing, POST otherwise; the
      inputs' values as the browser sends them; `images` is appended only when
      new files were chosen, and no `id` or `inProgress` field is ever sent. */
  function SubmitRequest(s: EditorState, inputs: FormInputs, urls: seq<string>, stringify: ImagesEncoder): (r: ProjectRequest)
    ensures r.verb == Put <==> s.editing.Some?
    ensures "id" !in r.form && "inProgress" !in r.form
    ensures CarriesInputs(r.form, Sent(inputs))
    ensures "images" in r.form <==> |s.newImages| > 0
    ensures |s.newImages| > 0 ==> r.form["images"] == stringify(urls)
  {
    var sent := Sent(inputs);
    var form := InputsForm(sent);
    var withImages := if |s.newImages| > 0 then form["images" := stringify(urls)] else form;
    assert CarriesInputs(withImages, sent) && "id" !in withImages && "inProgress" !in withImages by {
      if |s.newImages| > 0 {
        AddImages(form, sent, stringify(urls));
      }
    }
    ProjectRequest(if s.editing.Some? then Put else Post, withImages)
  }

  /** All image uploads, each yielding a url or failing; one failure rejects
      the whole batch. */
  function UploadAll(files: seq<ImageFile>, upload: ImageFile -> Option<string>): (r: Option<seq<string>>)
    ensures r.Some? ==> |r.value| == |files| && forall i :: 0 <= i < |files| ==> upload(files[i]) == Some(r.value[i])
    ensures r.None? <==> exists i :: 0 <= i < |files| && upload(files[i]).None?
  {
    if |files| == 0 then Some([])
    else
      match (upload(files[0]), UploadAll(files[1..], upload))
      case (Some(u), Some(us)) => Some([u] + us)
      case _ =>
        assert forall i :: 1 <= i < |files| ==> files[1..][i - 1] == files[i];
        None
  }

  /** What the projects route answered: the request was rejected, or it
      replied with an ok flag and, when the body parsed, a record. */
  datatype ServerReply = NetworkError | Replied(ok: bool, saved: Option<Project>)

  /** `local` with every record holding `id` replaced by `saved`. */
  function ReplaceById(local: seq<Project>, id: int, saved: Project): (r: seq<Project>)
    ensures |r| == |local|
    ensures forall i :: 0 <= i < |local| ==> r[i] == if local[i].id == id then saved else local[i]
  {
    seq(|local|, i requires 0 <= i < |local| => if local[i].id == id then saved else local[i])
  }

  /** The state after `handleSubmit`. An upload failure escapes before the
      request and changes nothing; only an ok reply with a parsable body
      updates the list (append when adding, replace by the edited id when
      editing) and closes and resets the modal. */
  function Submit(s: EditorState, upload: ImageFile -> Option<string>, reply: ServerReply): (r: EditorState)
    ensures UploadAll(s.newImages, upload).None? ==> r == s
    ensures !(reply.Replied? && reply.ok && reply.saved.Some?) ==> r == s
    ensures UploadAll(s.newImages, upload).Some? && reply.Replied? && reply.ok && reply.saved.Some? ==>
      && !r.modalOpen && r.editing.None? && r.newImages == []
      && (s.editing.None? ==> r.projects == s.projects + [reply.saved.value])
      && (s.editing.Some? ==>
            && |r.projects| == |s.projects|
            && forall i :: 0 <= i < |s.projects| ==>
                 r.projects[i] == if s.projects[i].id == s.editing.value.id then reply.saved.value else s.projects[i])
  {
    if UploadAll(s.newImages, upload).None? then s
    else if !(reply.Replied? && reply.ok && reply.saved.Some?) then s
    else
      var saved := reply.saved.value;
      var projects :=
        if s.editing.Some? then ReplaceById(s.projects, s.editing.value.id, saved)
        else s.projects + [saved];
      EditorState(projects, false, None, [])
  }

  /** `JSON.parse(JSON.stringify(xs))` gives `xs` back, and the text is not empty. */
  predicate Encodes(stringify: ImagesEncoder, parse: ImagesParser, xs: seq<string>)
  {
    stringify(xs) != "" && parse(stringify(xs)) == Some(xs)
  }

  /** As written, every edit misses: the form carries no `id`, so the route
      parses NaN, finds no record, answers 404 (or 500 when the form does not
      decode) and writes nothing. */
  lemma EditNeverFound(file: StoreFile, s: EditorState, inputs: FormInputs, urls: seq<string>,
                       stringify: ImagesEncoder, parse: ImagesParser, writeOk: bool)
    requires s.editing.Some?
    ensures
      var form := SubmitRequest(s, inputs, urls, stringify).form;
      var r := Update(file, Some(form), parse, writeOk);
      && r.file == file
      && r.response.Fail?
      && (Decode(form, parse).Some? ==> r.response == Fail(404, "Project not found"))
  {
    var form := SubmitRequest(s, inputs, urls, stringify).form;
    MissingIdIsNaN(form);
  }

  /** As written, an edit with no newly chosen files sends no `images` field,
      which the route decodes as the empty list, whatever images the record had. */
  lemma EditWithoutUploadsDropsImages(s: EditorState, inputs: FormInputs, urls: seq<string>,
                                      stringify: ImagesEncoder, parse: ImagesParser)
    requires s.editing.Some? && |s.newImages| == 0
    ensures
      var d := Decode(SubmitRequest(s, inputs, urls, stringify).form, parse);
      && d.Some? && d.value.images == []
      && (s.editing.value.images != [] ==> d.value.images != s.editing.value.images)
  {
    var form := SubmitRequest(s, inputs, urls, stringify).form;
    assert "features" in form && "technologies" in form && "images" !in form;
    assert DecodeImages(Field(form, "images"), parse) == Some([]);
  }

  /** The images an edit should send: the new uploads when files were chosen,
      otherwise the record's current images. */
  function SentImages(s: EditorState, urls: seq<string>): seq<string>
  {
    if |s.newImages| > 0 || s.editing.None? then urls else s.editing.value.images
  }

  /** The corrected request: an edit also carries the record's id, and keeps
      the record's images when no new files were chosen; adding is unchanged. */
  function SubmitRequestFixed(s: EditorState, inputs: FormInputs, urls: seq<string>, stringify: ImagesEncoder): (r: ProjectRequest)
    ensures r.verb == Put <==> s.editing.Some?
    ensures s.editing.None? ==> r == SubmitRequest(s, inputs, urls, stringify)
    ensures s.editing.Some? ==>
      && RequestId(r.form) == Int(s.editing.value.id)
      && "images" in r.form && r.form["images"] == stringify(SentImages(s, urls))
      && "inProgress" !in r.form
      && CarriesInputs(r.form, Sent(inputs))
  {
    var base := SubmitRequest(s, inputs, urls, stringify);
    match s.editing
    case None => base
    case Some(p) =>
      var withId := base.form["id" := IntToString(p.id)];
      var form := withId["images" := stringify(SentImages(s, urls))];
      ParseIntToString(p.id);
      assert form["id"] == IntToString(p.id);
      ProjectRequest(Put, form)
  }

  /** With the correction an edit reaches its record: the route answers 200
      with a record holding the edited id and the images sent, which are the
      record's own images when no new files were chosen. */
  lemma EditFixedFindsRecord(file: StoreFile, s: EditorState, inputs: FormInputs, urls: seq<string>,
                             stringify: ImagesEncoder, parse: ImagesParser)
    requires s.editing.Some?
    requires exists j :: 0 <= j < |ReadProjects(file)| && ReadProjects(file)[j].id == s.editing.value.id
    requires Encodes(stringify, parse, SentImages(s, urls))
    ensures
      var r := Update(file, Some(SubmitRequestFixed(s, inputs, urls, stringify).form), parse, true);
      && r.response.Ok?
      && r.response.body.id == s.editing.value.id
      && r.response.body.images == SentImages(s, urls)
      && (|s.newImages| == 0 ==> r.response.body.images == s.editing.value.images)
  {
    var e := s.editing.value;
    var form := SubmitRequestFixed(s, inputs, urls, stringify).form;
    var ps := ReadProjects(file);
    var j :| 0 <= j < |ps| && ps[j].id == e.id;
    assert RequestId(form) == Int(ps[j].id);
    assert FindIndex(ps, RequestId(form)).Some?;
    assert DecodeImages(Field(form, "images"), parse) == Some(SentImages(s, urls));
    var d := Decode(form, parse);
    assert d.Some? && d.value.images == SentImages(s, urls);
    var r := Update(file, Some(form), parse, true);
    assert r.response.Ok?;
    assert Some(FieldsOf(r.response.body)) == d;
  }

  /** Which records come back unchanged from the corrected edit form: the
      features in the shape the form stores them, technologies that survive
      the text input, the four text fields present with no line break where
      the input drops them and only CR LF line breaks in the long
      description, a live-demo link that is neither empty nor padded with
      white space, and not in progress (the form has no input for that flag). */
  predicate SurvivesEdit(p: Project)
  {
    && FeatureLines(p.features)
    && |p.technologies| >= 1
    && (forall i :: 0 <= i < |p.technologies| ==>
          Trimmed(p.technologies[i]) && ',' !in p.technologies[i] && NoLineBreak(p.technologies[i]))
    && p.title.Some? && NoLineBreak(p.title.value)
    && p.description.Some? && NoLineBreak(p.description.value)
    && p.longDescription.Some? && CrlfNormal(p.longDescription.value)
    && p.githubRepo.Some? && NoLineBreak(p.githubRepo.value)
    && (p.liveDemo.Some? ==>
          p.liveDemo.value != "" && NoLineBreak(p.liveDemo.value) && TrimmedBy(p.liveDemo.value, IsAsciiSpace))
    && !p.inProgress
  }

  /** Opening a record for editing and saving it untouched, with the
      correction, decodes to the same record exactly when it survives the edit. */
  lemma EditRoundTrip(s: EditorState, urls: seq<string>, stringify: ImagesEncoder, parse: ImagesParser)
    requires s.editing.Some? && |s.newImages| == 0
    requires Encodes(stringify, parse, s.editing.value.images)
    ensures
      var p := s.editing.value;
      var d := Decode(SubmitRequestFixed(s, DefaultInputs(Some(p)), urls, stringify).form, parse);
      d.Some? && (WithId(d.value, p.id) == p <==> SurvivesEdit(p))
  {
    var p := s.editing.value;
    var inputs := DefaultInputs(Some(p));
    var form := SubmitRequestFixed(s, inputs, urls, stringify).form;
    assert CarriesInputs(form, Sent(inputs));
    assert "inProgress" !in form;
    assert DecodeImages(Field(form, "images"), parse) == Some(p.images);
    var d := Decode(form, parse).value;
    assert d == EditedFields(p);
    EditedFieldsRoundTrip(p);
  }

  /** What the corrected edit form of `p` decodes to, once the browser has
      sent the inputs' default values. */
  function EditedFields(p: Project): Fields
  {
    Fields(Some(StripNewlines(InputText(p.title))), Some(StripNewlines(InputText(p.description))),
           Some(Crlf(InputText(p.longDescription))),
           DecodeFeatures(Crlf(Join(p.features, "\n"))), p.images,
           DecodeTechnologies(StripNewlines(Join(p.technologies, ", "))),
           Some(StripNewlines(InputText(p.githubRepo))),
           DecodeLiveDemo(Some(UrlValue(InputText(p.liveDemo)))), false)
  }

  lemma EditedFieldsRoundTrip(p: Project)
    ensures WithId(EditedFields(p), p.id) == p <==> SurvivesEdit(p)
  {
    FeaturesThroughForm(p.features);
    TechnologiesThroughForm(p.technologies);
    StripNewlinesKeeps(InputText(p.title));
    StripNewlinesKeeps(InputText(p.description));
    StripNewlinesKeeps(InputText(p.githubRepo));
    CrlfKeeps(InputText(p.longDescription));
    UrlValueKeeps(InputText(p.liveDemo));
  }
}

=== FILE: text.dfy ===
/** JavaScript string operations with a single-character separator:
    `String.prototype.split`, `Array.prototype.join` and `String.prototype.trim`. */
module Text {

  /** Number of occurrences of `c` in `s`. */
  function Count(s: string, c: char): nat
  {
    if |s| == 0 then 0
    else (if s[0] == c then 1 else 0) + Count(s[1..], c)
  }

  lemma {:induction false} CountAppend(a: string, b: string, c: char)
    ensures Count(a + b, c) == Count(a, c) + Count(b, c)
  {
    if |a| == 0 {
      assert a + b == b;
    } else {
      assert (a + b)[1..] == a[1..] + b;
      CountAppend(a[1..], b, c);
    }
  }

  lemma {:induction false} CountAbsent(s: string, c: char)
    ensures c !in s <==> Count(s, c) == 0
  {
    if |s| > 0 {
      CountAbsent(s[1..], c);
      assert s == [s[0]] + s[1..];
    }
  }

  /** `s.split(sep)`: the maximal `sep`-free pieces between separators.
      There is always one more piece than separators, and no piece holds `sep`;
      the empty string splits into one empty piece. */
  function Split(s: string, sep: char): (r: seq<string>)
    ensures |r| == Count(s, sep) + 1
    ensures forall i :: 0 <= i < |r| ==> sep !in r[i]
    decreases |s|
  {
    if |s| == 0 then [""]
    else
      var rest := Split(s[1..], sep);
      if s[0] == sep then [""] + rest
      else [[s[0]] + rest[0]] + rest[1..]
  }

  /** `parts.join(sep)`: the first part, then `sep` and the next part in
      turn; joining no parts gives the empty string. */
  function Join(parts: seq<string>, sep: string): (r: string)
    ensures |parts| == 0 ==> r == ""
    ensures |parts| >= 1 ==> |parts[0]| <= |r| && r[..|parts[0]|] == parts[0]
  {
    if |parts| == 0 then ""
    else if |parts| == 1 then parts[0]
    else parts[0] + sep + Join(parts[1..], sep)
  }

  /** A separator-free string is a single piece. */
  lemma {:induction false} SplitNoSeparator(s: string, sep: char)
    requires sep !in s
    ensures Split(s, sep) == [s]
  {
    CountAbsent(s, sep);
    if |s| > 0 {
      SplitNoSeparator(s[1..], sep);
      assert [s[0]] + s[1..] == s;
    }
  }

  /** Splitting at the first separator: the part before it becomes the first piece. */
  lemma {:induction false} SplitFirst(a: string, sep: char, b: string)
    requires sep !in a
    ensures Split(a + [sep] + b, sep) == [a] + Split(b, sep)
  {
    if |a| == 0 {
      assert a + [sep] + b == [sep] + b;
      assert ([sep] + b)[1..] == b;
    } else {
      assert (a + [sep] + b)[1..] == a[1..] + [sep] + b;
      SplitFirst(a[1..], sep, b);
      assert [a[0]] + a[1..] == a;
    }
  }

  /** Split undoes join when the parts hold no separator (and there is at least
      one part: joining none gives "", which splits into one empty piece). */
  lemma {:induction false} SplitJoin(parts: seq<string>, sep: char)
    requires |parts| >= 1
    requires forall i :: 0 <= i < |parts| ==> sep !in parts[i]
    ensures Split(Join(parts, [sep]), sep) == parts
  {
    if |parts| == 1 {
      SplitNoSeparator(parts[0], sep);
    } else {
      SplitJoin(parts[1..], sep);
      SplitFirst(parts[0], sep, Join(parts[1..], [sep]));
      assert [parts[0]] + parts[1..] == parts;
    }
  }

  /** A piece of a split holds only characters of the split string. */
  lemma {:induction false} SplitPieceChars(s: string, sep: char, i: int, c: char)
    requires 0 <= i < |Split(s, sep)| && c in Split(s, sep)[i]
    ensures c in s
    decreases |s|
  {
    if |s| > 0 {
      var rest := Split(s[1..], sep);
      if s[0] == sep {
        if i > 0 {
          assert Split(s, sep)[i] == rest[i - 1];
          SplitPieceChars(s[1..], sep, i - 1, c);
        }
      } else if i == 0 {
        if c != s[0] {
          assert c in rest[0];
          SplitPieceChars(s[1..], sep, 0, c);
        }
      } else {
        assert Split(s, sep)[i] == rest[i];
        SplitPieceChars(s[1..], sep, i, c);
      }
    }
  }

  /** A character in neither the parts nor the separator is not in their join. */
  lemma {:induction false} JoinAvoids(parts: seq<string>, sep: string, c: char)
    requires c !in sep && forall i :: 0 <= i < |parts| ==> c !in parts[i]
    ensures c !in Join(parts, sep)
  {
    if |parts| > 1 {
      JoinAvoids(parts[1..], sep, c);
    }
  }

  /** Join undoes split, for every string. */
  lemma {:induction false} JoinSplit(s: string, sep: char)
    ensures Join(Split(s, sep), [sep]) == s
    decreases |s|
  {
    if |s| > 0 {
      var rest := Split(s[1..], sep);
      JoinSplit(s[1..], sep);
      if s[0] == sep {
        assert Split(s, sep) == [""] + rest;
        assert ([""] + rest)[1..] == rest;
        assert Join(Split(s, sep), [sep]) == "" + [sep] + Join(rest, [sep]);
        assert [s[0]] + s[1..] == s;
      } else {
        var r := Split(s, sep);
        assert r == [[s[0]] + rest[0]] + rest[1..];
        if |rest| == 1 {
          assert Join(r, [sep]) == [s[0]] + rest[0];
          assert [s[0]] + s[1..] == s;
        } else {
          assert r[1..] == rest[1..];
          assert Join(r, [sep]) == [s[0]] + rest[0] + [sep] + Join(rest[1..], [sep]);
          assert Join(rest, [sep]) == rest[0] + [sep] + Join(rest[1..], [sep]);
          assert [s[0]] + s[1..] == s;
        }
      }
    }
  }

  /** The characters `String.prototype.trim` removes: ECMAScript WhiteSpace and
      LineTerminator code points. */
  predicate IsSpace(c: char)
  {
    || c == ' ' || c == '\t' || c == '\n' || c == '\r'
    || c == '\U{000B}' || c == '\U{000C}' || c == '\U{00A0}' || c == '\U{1680}'
    || ('\U{2000}' <= c <= '\U{200A}')
    || c == '\U{2028}' || c == '\U{2029}' || c == '\U{202F}' || c == '\U{205F}'
    || c == '\U{3000}' || c == '\U{FEFF}'
  }

  /** Leading `space` characters removed: the result is the suffix of the
      input that starts at its first other character. */
  function TrimStart(s: string, space: char -> bool): (r: string)
    ensures |r| <= |s| && r == s[|s| - |r|..]
    ensures |r| > 0 ==> !space(r[0])
    ensures forall i :: 0 <= i < |s| - |r| ==> space(s[i])
  {
    if |s| > 0 && space(s[0]) then
      var r := TrimStart(s[1..], space);
      assert forall i :: 1 <= i < |s| - |r| ==> s[i] == s[1..][i - 1];
      r
    else s
  }

  /** Nothing to cut when the first character is no `space` character. */
  lemma TrimStartKeeps(s: string, space: char -> bool)
    requires |s| == 0 || !space(s[0])
    ensures TrimStart(s, space) == s
  {
  }

  /** Trailing `space` characters removed: the result is the prefix of the
      input that ends at its last other character. */
  function TrimEnd(s: string, space: char -> bool): (r: string)
    ensures |r| <= |s| && r == s[..|r|]
    ensures |r| > 0 ==> !space(r[|r| - 1])
    ensures forall i :: |r| <= i < |s| ==> space(s[i])
  {
    if |s| > 0 && space(s[|s| - 1]) then
      var r := TrimEnd(s[..|s| - 1], space);
      assert forall i :: |r| <= i < |s| - 1 ==> s[i] == s[..|s| - 1][i];
      r
    else s
  }

  /** Neither end of `s` is a `space` character. */
  predicate TrimmedBy(s: string, space: char -> bool)
  {
    |s| == 0 || (!space(s[0]) && !space(s[|s| - 1]))
  }

  /** `r` is the slice of `s` starting at `k`, and everything of `s` before
      and after that slice is a `space` character. */
  predicate Peels(s: string, k: int, r: string, space: char -> bool)
  {
    && 0 <= k <= |s| - |r|
    && r == s[k..k + |r|]
    && (forall i :: 0 <= i < k ==> space(s[i]))
    && (forall i :: k + |r| <= i < |s| ==> space(s[i]))
  }

  /** Both ends trimmed: a trimmed slice of `s` with only `space` characters
      cut away, and `s` itself when it already is trimmed. */
  function TrimBy(s: string, space: char -> bool): (r: string)
    ensures TrimmedBy(r, space)
    ensures exists k :: Peels(s, k, r, space)
    ensures TrimmedBy(s, space) ==> r == s
  {
    var t := TrimStart(s, space);
    var r := TrimEnd(t, space);
    var k := |s| - |t|;
    assert |r| > 0 ==> r[0] == t[0];
    assert r == s[k..k + |r|];
    assert forall i :: k + |r| <= i < |s| ==> s[i] == t[i - k];
    assert Peels(s, k, r, space);
    assert TrimmedBy(s, space) ==> |t| == |s| && |r| == |t|;
    r
  }

  /** Trimming only removes characters: every character left is one of `s`. */
  lemma TrimByKeepsChars(s: string, space: char -> bool)
    ensures |TrimBy(s, space)| <= |s|
    ensures forall c :: c in TrimBy(s, space) ==> c in s
  {
    var r := TrimBy(s, space);
    var k :| Peels(s, k, r, space);
    assert forall i :: 0 <= i < |r| ==> r[i] == s[k + i];
  }

  /** The trimmed result is the only trimmed slice of `s` that `space`
      characters surround. */
  lemma {:induction false} TrimByUnique(s: string, k: int, r: string, space: char -> bool)
    requires Peels(s, k, r, space) && TrimmedBy(r, space)
    ensures r == TrimBy(s, space)
  {
    var t := TrimBy(s, space);
    var k' :| Peels(s, k', t, space);
    if |r| == 0 {
      assert forall i :: 0 <= i < |s| ==> space(s[i]);
    } else {
      assert !space(s[k]) && !space(s[k + |r| - 1]);
      assert |t| > 0;
      assert !space(s[k']) && !space(s[k' + |t| - 1]);
      assert k == k';
      assert k + |r| == k' + |t|;
    }
  }

  /** Neither end is ECMAScript white space. */
  predicate Trimmed(s: string)
  {
    TrimmedBy(s, IsSpace)
  }

  /** `s.trim()`: the slice of `s` left once the white space at both ends is
      cut away; `s` itself when it already is trimmed. */
  function Trim(s: string): (r: string)
    ensures Trimmed(r)
    ensures exists k :: Peels(s, k, r, IsSpace)
    ensures Trimmed(s) ==> r == s
    ensures forall c :: c in r ==> c in s
  {
    TrimBy(s, IsSpace)
  }

  /** Trimming an already-trimmed string changes nothing. */
  lemma TrimKeeps(s: string)
    requires Trimmed(s)
    ensures Trim(s) == s
  {
  }

  /** A leading ASCII space makes no difference to the trimmed result. */
  lemma TrimLeadingSpace(s: string)
    ensures Trim([' '] + s) == Trim(s)
  {
    assert ([' '] + s)[1..] == s;
  }

  /** `Split` then trim every piece: the decoding of a comma-separated list. */
  function TrimAll(parts: seq<string>): (r: seq<string>)
    ensures |r| == |parts|
    ensures forall i :: 0 <= i < |r| ==> r[i] == Trim(parts[i])
  {
    if |parts| == 0 then [] else [Trim(parts[0])] + TrimAll(parts[1..])
  }

  /** An already-trimmed first piece stays as it is in front of the others. */
  lemma TrimAllTrimmedCons(first: string, rest: seq<string>)
    requires Trimmed(first)
    ensures TrimAll([first] + rest) == [first] + TrimAll(rest)
  {
    assert ([first] + rest)[1..] == rest;
    TrimKeeps(first);
  }

  /** A leading space before the first piece disappears once the pieces are trimmed. */
  lemma TrimAllSplitLeadingSpace(s: string, sep: char)
    requires sep != ' '
    ensures TrimAll(Split([' '] + s, sep)) == TrimAll(Split(s, sep))
  {
    var rest := Split(s, sep);
    var spaced := Split([' '] + s, sep);
    assert ([' '] + s)[1..] == s;
    assert spaced == [[' '] + rest[0]] + rest[1..];
    forall i | 0 <= i < |rest|
      ensures Trim(spaced[i]) == Trim(rest[i])
    {
      if i == 0 {
        TrimLeadingSpace(rest[0]);
      } else {
        assert spaced[i] == rest[i];
      }
    }
  }
}

=== FILE: upload.dfy ===
/** The image upload route: validation of the `image` field, the stored file
    name built from a fresh UUID and the sanitised original name, and the
    public url returned for it. */
module Upload {
  import opened Common
  import opened Http

  /** The characters the sanitiser keeps: ASCII letters, digits, `.` and `-`. */
  predicate IsAllowed(c: char)
  {
    ('a' <= c <= 'z') || ('A' <= c <= 'Z') || ('0' <= c <= '9') || c == '.' || c == '-'
  }

  /** `name.replace(/[^a-zA-Z0-9.-]/g, '')`: the allowed characters of `name`,
      in order. No path separator survives. */
  function Sanitize(name: string): (r: string)
    ensures |r| <= |name|
    ensures forall i :: 0 <= i < |r| ==> IsAllowed(r[i])
    ensures '/' !in r && '\\' !in r
  {
    Keep(name, IsAllowed)
  }

  /** Sanitising works piece by piece: with the one-character cases (an
      allowed character is kept, any other dropped) this says the result is
      exactly the in-order subsequence of allowed characters. */
  lemma SanitizeAppend(a: string, b: string)
    ensures Sanitize(a + b) == Sanitize(a) + Sanitize(b)
    ensures |a| == 1 ==> Sanitize(a) == if IsAllowed(a[0]) then a else ""
  {
    KeepAppend(a, b, IsAllowed);
  }

  /** A name made only of allowed characters is left as it is. */
  lemma SanitizeClean(name: string)
    requires forall i :: 0 <= i < |name| ==> IsAllowed(name[i])
    ensures Sanitize(name) == name
  {
    KeepAll(name, IsAllowed);
  }

  /** Sanitising twice is sanitising once. */
  lemma SanitizeIdempotent(name: string)
    ensures Sanitize(Sanitize(name)) == Sanitize(name)
  {
    SanitizeClean(Sanitize(name));
  }

  predicate IsLowerHex(c: char)
  {
    ('0' <= c <= '9') || ('a' <= c <= 'f')
  }

  /** The text form of a version-4 UUID: 8-4-4-4-12 lower-case hex digits
      separated by hyphens. */
  predicate IsUuid(u: string)
  {
    && |u| == 36
    && (forall i :: 0 <= i < 36 ==> if i in {8, 13, 18, 23} then u[i] == '-' else IsLowerHex(u[i]))
  }

  /** The stored file name: the UUID, a hyphen, then the sanitised original name. */
  function StoredName(uuid: string, original: string): (r: string)
    ensures |r| == |uuid| + 1 + |Sanitize(original)|
    ensures r[..|uuid|] == uuid && r[|uuid|] == '-' && r[|uuid| + 1..] == Sanitize(original)
  {
    uuid + "-" + Sanitize(original)
  }

  /** The public url of a stored file. */
  function PublicUrl(filename: string): (r: string)
    ensures |r| == |filename| + 9 && r[9..] == filename
  {
    "/uploads/" + filename
  }

  /** A stored name is a single path component: with a well-formed UUID it holds
      no `/` or `\`, and it is never `.` or `..`, so the write stays inside the
      uploads directory. */
  lemma StoredNameStaysInDirectory(uuid: string, original: string)
    requires IsUuid(uuid)
    ensures var n := StoredName(uuid, original);
      '/' !in n && '\\' !in n && |n| > 2
  {
    var n := StoredName(uuid, original);
    forall i | 0 <= i < |n|
      ensures n[i] != '/' && n[i] != '\\'
    {
      if i < 36 {
        assert n[i] == uuid[i];
      } else if i > 36 {
        assert n[i] == Sanitize(original)[i - 37];
      }
    }
  }

  /** An uploaded file: its name, declared MIME type and content. */
  datatype UploadFile = UploadFile(name: string, mimeType: string, content: seq<bv8>)

  /** The value of the `image` form field: text or a file. */
  datatype ImageField = TextValue(text: string) | FileValue(file: UploadFile)

  /** A file written to the uploads directory. */
  datatype Written = Written(filename: string, content: seq<bv8>)

  /** The route's effect: the file written, if any, and the response (the url). */
  datatype UploadReply = UploadReply(written: Option<Written>, response: Response<string>)

  /** POST. `request` is `None` when the body is no form; `uuid` is the fresh
      identifier and `writeOk` whether the write succeeded. The checks run in
      the order the route checks them: a missing (or empty text) field is 400;
      a text field has no `type`, so reading it throws and gives 500; a file
      whose type does not start with `image/` is 400; only then is the file
      written. */
  function Post(request: Option<map<string, ImageField>>, uuid: string, writeOk: bool): (r: UploadReply)
    ensures request.None? ==> r == UploadReply(None, Fail(500, "Error uploading file"))
    ensures request.Some? && ("image" !in request.value || request.value["image"] == TextValue("")) ==>
      r == UploadReply(None, Fail(400, "No file uploaded"))
    ensures request.Some? && "image" in request.value && request.value["image"].FileValue?
            && !StartsWith(request.value["image"].file.mimeType, "image/") ==>
      r == UploadReply(None, Fail(400, "Invalid file type"))
    ensures r.written.Some? <==> r.response.Ok?
    ensures r.response.Ok? <==>
      && request.Some? && "image" in request.value && request.value["image"].FileValue?
      && StartsWith(request.value["image"].file.mimeType, "image/") && writeOk
    ensures r.response.Ok? ==>
      var f := request.value["image"].file;
      && r.written == Some(Written(StoredName(uuid, f.name), f.content))
      && r.response.body == PublicUrl(StoredName(uuid, f.name))
  {
    if request.None? then UploadReply(None, Fail(500, "Error uploading file"))
    else if "image" !in request.value || request.value["image"] == TextValue("") then
      UploadReply(None, Fail(400, "No file uploaded"))
    else
      match request.value["image"]
      case TextValue(_) => UploadReply(None, Fail(500, "Error uploading file"))
      case FileValue(f) =>
        if !StartsWith(f.mimeType, "image/") then UploadReply(None, Fail(400, "Invalid file type"))
        else
          var name := StoredName(uuid, f.name);
          if !writeOk then UploadReply(None, Fail(500, "Error uploading file"))
          else UploadReply(Some(Written(name, f.content)), Ok(PublicUrl(name)))
  }
}
